=== FILE: README.md ===
# RedisCaching: a Dafny model of the cache-aside core

RedisCaching is an ASP.NET Web API that serves a Products table through a
Redis cache. This project models its core as pure functions over immutable
values and proves properties of them:

- `RedisCacheService` (module `CacheService`): `GetOrSetAsync` is the
  cache-aside read. If caching is disabled it calls the loader. Otherwise it
  reads the key. A non-empty payload is deserialized and returned. A miss
  calls the loader and writes a non-null result back with a sliding
  expiration. Any exception reaches a catch block that calls the loader
  again: a second call when the loader had already run (it threw, or the
  write-back failed), and the only call when the read or the deserialization
  failed first.
  `RemoveAsync` is best-effort invalidation that never throws. The loader is
  a function from its invocation number to that invocation's outcome, so a
  contract can say how many times it ran.
- The Redis server as `IDistributedCache` sees it (module `Store`). The client
  prefixes every key with the configured instance name, verbatim. The whole
  server can be unreachable. Individual raw keys can be set up to make reads,
  writes or removals throw. An entry records its sliding expiration; time is
  not modelled.
- `RedisCacheController` (module `CacheController`): the status probe, list
  all, read one, clear all and clear one. Each action checks the multiplexer
  probe first (503 when down). A `RedisConnectionException` maps to 503 with
  details; any other exception maps to 500.
- `ProductsController` (module `ProductsController`): reads under the keys
  `GET_ALL_PRODUCTS` and `Product_{id}`. Writes save to the database first and
  then invalidate the keys they make stale. Each action is a transition of the
  (database, cache) pair, together with the ordered list of side effects it
  issues.
- `ApplicationDbContext` (module `Data`): the Products table as a map from key
  to row, the Entity Framework operations the controller uses, and the seed
  generator (600 rows).
- Supporting modules: `Outcomes` (null, option, exceptions, "returned or
  threw") and `Text` (.NET ordinal `String.Replace` and integer formatting).

The central invariant is `ProductsController.Coherent`: whatever the cache
would serve under either key family agrees with the database. Every action
preserves it under three hypotheses: the invalidations of a write go through,
the codecs round-trip (`RoundTrips(codec)`, needed by the two reads, whose
misses write back), and the table is well-formed (`Valid(s.db)`, needed by
create, whose new Id must be unused). Under it,
reads return exactly the database's rows, whether they hit or miss.

## Model

| member | source | states |
|---|---|---|
| `CacheService.GetOrSet` | Service/RedisCacheService.cs:18-45 | The loader runs at most twice, and what is returned is a loader outcome or the deserialized entry. Disabled or unreachable: one loader call, no write. The loader is skipped iff a readable entry deserializes. A cold key with a null result writes nothing. A cold key with a value writes it under the prefixed key with the configured sliding expiration. A failing read gives one loader call. A loader that throws, or a value that cannot be written back, gives a second loader call and no write. A corrupt entry takes the catch path and is not repaired. Any change to the store is exactly that one write. |
| `CacheService.RemoveAsync` | Service/RedisCacheService.cs:47-53 | Never fails. It only ever removes entries, and no entry other than the prefixed key's. A disabled service or a failing removal changes nothing. Otherwise exactly the prefixed key is gone. |
| `CacheService.SecondCallHits` | Service/RedisCacheService.cs:24-39 | After a miss stores the loader's value (the codec round-trips), the next call returns that value without calling its own loader. |
| `CacheService.InvalidateForcesReload` | Service/RedisCacheService.cs:47-53 | After a successful removal the next read cannot be served from the cache. It returns one of its loader's outcomes. |
| `Text.ReplaceAll` | Controllers/RedisCacheController.cs:61 | Ordinal replace-all of a non-empty pattern. The body is the definition: one left-to-right scan that never overlaps two occurrences. The contract states that deleting never lengthens the string, and that a replacement of the pattern's own length keeps the length. `Text.ReplaceAllSinglePass` separates it from a replace that rescans. The other `Text` lemmas state the properties the controllers use. |
| `Text.Replace` | Controllers/RedisCacheController.cs:61 | An empty search string throws `ArgumentException`. Any other succeeds. |
| `Text.ReplaceAllSinglePass` | Controllers/RedisCacheController.cs:61 | One pass, with no rescan: "aabb" with "ab" deleted is "ab", not "". Replacing "a" by "aa" in "a" gives "aa"; it does not loop. |
| `Text.ReplaceAbsent` | Controllers/RedisCacheController.cs:118 | Replacing a pattern that does not occur leaves the string unchanged. |
| `Text.StripByReplace` | Controllers/RedisCacheController.cs:61 | Deleting every occurrence of a prefix from `prefix + k` gives back `k` exactly when the prefix does not occur in `k`. |
| `Text.RemovalShortens` | Controllers/RedisCacheController.cs:61 | Deleting every occurrence of a non-empty pattern from a string that contains it makes the string strictly shorter. |
| `Text.IntToString` | Controllers/ProductsController.cs:46 | The `int` rendering inside `Product_{id}`: non-empty, a leading '-' exactly for negative numbers, and decimal digits otherwise. `Text.ParseNatToString` inverts it. |
| `Text.ParseNatToString` | Controllers/ProductsController.cs:46 | Reading back the decimal digits of a natural number gives the number. |
| `Text.IntToStringInjective` | Controllers/ProductsController.cs:46 | Distinct ids format to distinct decimal strings. |
| `CacheController.IsRedisConnected` | Controllers/RedisCacheController.cs:26-36 | Connected exactly when the probe reports connected. A throwing probe reads as down. |
| `CacheController.GetRedisStatus` | Controllers/RedisCacheController.cs:38-42 | Always 200. "Connected" iff the probe is up, "Redis server down" iff it is not. |
| `CacheController.Caught` | Controllers/RedisCacheController.cs:68-75 | 503 with the details iff the exception is a `RedisConnectionException`. Otherwise 500 with the action's failure message and the exception message. |
| `CacheController.Collect` | Controllers/RedisCacheController.cs:59-64 | The loop succeeds iff every step does. Its entries are the steps' results in order. On failure, the reported exception is the first failing step's. |
| `CacheController.RemoveEach` | Controllers/RedisCacheController.cs:116-120 | The removal loop only shrinks the store. It completes iff every target computes and is removable. Then exactly the raw keys of the targets are gone. Every entry it removed was some key's target. On an exception it stops at the first failing iteration. Afterwards exactly the raw keys of the earlier iterations' targets are gone: those removals stay done, and nothing after the failure is sent. |
| `CacheController.GetAllCachedKeysAndValues` | Controllers/RedisCacheController.cs:44-76 | As written: 503 when down. Enumeration errors go through the catch clauses. The answer is 200 iff every key's iteration succeeds. Otherwise the first failing iteration's exception goes through the catch clauses. A non-empty instance name and a readable store always give 200. A 200 lists, per enumerated raw key in order, the key with every occurrence of the instance name deleted and the value read under it ("null" if absent). An empty instance name with any key gives the generic 500. |
| `CacheController.GetCacheEntryByKey` | Controllers/RedisCacheController.cs:78-101 | 503 when down. On a healthy read it returns 404 iff the prefixed key is absent, and 200 with the stored payload otherwise. A failing read goes through the catch clauses. |
| `CacheController.ClearAllCacheEntries` | Controllers/RedisCacheController.cs:103-132 | As written: 503 when down, and enumeration errors go through the catch clauses. Every entry it removes is the raw key of some computed target (an enumerated key with `instanceName + ":"` deleted), and nothing else goes. It reports success iff every target is removable, and then exactly the targets are gone. Otherwise the first failing removal's exception goes through the catch clauses. Exactly the targets before it are gone: those removals stay done, and nothing after it is sent. |
| `CacheController.ClearCacheEntryByKey` | Controllers/RedisCacheController.cs:134-155 | 503 when down. A healthy removal returns 200 whether or not the key existed, and exactly the prefixed key is gone. A failing removal changes nothing and goes through the catch clauses. |
| `CacheController.ListAllManglesKeys` | Controllers/RedisCacheController.cs:61 | With instance name "a", the stored key "banana" is listed as "bnn" with value "null". |
| `CacheController.ClearAllLeavesEntries` | Controllers/RedisCacheController.cs:118 | With instance name "app:", clear-all reports success and leaves the entry stored under "x" in place. |
| `CacheController.ListAllAsWrittenKeepsKey` | Controllers/RedisCacheController.cs:59-64 | For every input with a non-empty instance name and a readable store: the entry stored under `k` is listed under `k` iff the instance name does not occur in `k`, and then with its stored value. |
| `CacheController.ClearAllAsWrittenRemoves` | Controllers/RedisCacheController.cs:116-120 | For every input where no enumerated key contains `instanceName + ":"` and removals are healthy: success is reported, and the entry stored under `k` is removed iff `k` itself, not its raw key, was enumerated. |
| `CacheController.ClearAllAsWrittenMissesOwnKey` | Controllers/RedisCacheController.cs:118-119 | For a non-empty instance name, when a raw key does not contain `instanceName + ":"`, the target computed for it is the raw key itself. The client prefixes that again, so the removal addresses a different key. |
| `CacheController.Scoped` | Controllers/RedisCacheController.cs:55 | The application's own raw keys: exactly the enumerated keys that start with the instance name. |
| `CacheController.ScopedOne` | Controllers/RedisCacheController.cs:59-64 | A single enumerated key is kept exactly when it starts with the instance name. |
| `CacheController.ScopedAppend` | Controllers/RedisCacheController.cs:59-64 | Filtering distributes over concatenation, so the application's keys keep their enumeration order and appear once per enumeration. With `ScopedOne` this determines the filter. |
| `CacheController.StripUndoesRawKey` | Controllers/RedisCacheController.cs:61 | Removing the instance name once from the front recovers the caller's key from its raw key. |
| `CacheController.GetAllCachedKeysAndValuesScoped` | Controllers/RedisCacheController.cs:44-76 | Corrected list-all. Only the application's keys are listed, each under the key whose raw form it is, with its stored value. It answers 200 exactly when every own key can be read; otherwise the first failing read's exception goes through the catch clauses. A healthy store always answers 200, including with an empty instance name. |
| `CacheController.ListAllScopedRoundTrip` | Controllers/RedisCacheController.cs:59-64 | Every stored and enumerated key of the application is listed under the very key the caller used, with its value. |
| `CacheController.ClearAllCacheEntriesScoped` | Controllers/RedisCacheController.cs:116-120 | Corrected clear-all. Only the application's enumerated keys are removed; other entries stay. It reports success exactly when every own key's removal goes through, and then every own key is gone. A failing removal goes through the catch clauses; the removals before it stay done, and no later key is sent. A complete enumeration with healthy removals reports success and leaves no key of the application. |
| `Data.SortedKeys` | Controllers/ProductsController.cs:30 | A key set listed once each, in strictly ascending order. |
| `Data.Listing` | Controllers/ProductsController.cs:30 | `ToListAsync` returns every row of the table once: the same size, every listed row is a stored row, and every stored row is listed. |
| `Data.ListingAscending` | Controllers/ProductsController.cs:30 | In a well-formed table the listing is in strictly ascending Id order. |
| `Data.Insert` | Controllers/ProductsController.cs:65-66 | Succeeds iff the database is reachable and the entity arrives with the default Id 0. A non-zero Id is an explicit value the identity column refuses. On success the row gets the next identity value, is stored under it, and the identity advances. |
| `Data.Modify` | Controllers/ProductsController.cs:88-89 | Succeeds iff the database is reachable and the row exists. Then that row, and only it, is replaced. |
| `Data.Delete` | Controllers/ProductsController.cs:115-116 | Succeeds iff the database is reachable. Then exactly that key is gone. |
| `Data.WritesKeepValid` | Data/ApplicationDbContext.cs:16 | Insert, update and delete keep every row under its own Id, below the next identity value. |
| `Data.DummyTable` | Data/ApplicationDbContext.cs:40-60 | The first n generated rows: row i - 1 has Id i and is the row built for index i. |
| `Data.GenerateDummyProducts` | Data/ApplicationDbContext.cs:29-63 | A negative count throws. Otherwise it yields count rows, the row at position i having Id i + 1 and name "Product {i + 1}". |
| `Data.SeedIdsAscending` | Data/ApplicationDbContext.cs:40-54 | Seed Ids lie in 1..count and strictly ascend, so they are unique. |
| `Data.SeedColumnsCycle` | Data/ApplicationDbContext.cs:45-50 | Category, price and quantity cycle through their tables by Id, so they take only those values. Id 1 is a vegetable. |
| `Data.SeedDb` | Data/ApplicationDbContext.cs:26 | The seeded table is well-formed and holds exactly the keys 1..count. The row under each key is the row the generator builds for that Id. The identity continues at count + 1. |
| `Data.Seeded` | Data/ApplicationDbContext.cs:18-27 | The model seeds exactly the keys 1..600. Each row is the one `GenerateDummyProducts(600)` yields at position id - 1, named "Product {id}". |
| `ProductsController.ProductKey` | Controllers/ProductsController.cs:46 | A product key never collides with the all-products key. |
| `ProductsController.ProductKeyInjective` | Controllers/ProductsController.cs:46 | Distinct ids never share a cache key. |
| `ProductsController.GetAll` | Controllers/ProductsController.cs:24-39 | Leaves the database alone and issues no effects. It answers 200 with the served list, an empty list for a served null, and 500 "Internal server error" iff the orchestrator throws. |
| `ProductsController.GetProduct` | Controllers/ProductsController.cs:41-58 | 404 "Product {id} not found" iff the served value is null. 200 with the product iff it is non-null. 500 iff the orchestrator throws. |
| `ProductsController.CreateProduct` | Controllers/ProductsController.cs:60-78 | An unreachable database, or a product sent with a non-zero Id, gives 500 and changes nothing. Otherwise the row is created with its assigned Id, the trace is exactly the save followed by the all-products invalidation. |
| `ProductsController.InvalidateProduct` | Controllers/ProductsController.cs:91-95 | Only removes entries, and no entry other than the product key's and the all-products key's. Each removal swallows its own failure, so either key can go without the other. A removal that throws leaves its key in place. When both removals are healthy, exactly those two keys are gone. Disabled caching changes nothing. |
| `ProductsController.InvalidateBothEffects` | Controllers/ProductsController.cs:91-95 | Both invalidations come after the save, and exactly those two keys are invalidated. |
| `ProductsController.UpdateProduct` | Controllers/ProductsController.cs:80-104 | An id mismatch gives 400 "ID mismatch" with no change. Success (204) holds iff the ids match and the row exists in a reachable database; the cache cannot make it fail. On success exactly that row is replaced, and the trace is exactly the save, then the product key's invalidation, then the all-products key's. Matching ids with an unreachable database or a missing row give 500 "Internal server error". In every failure nothing changes. |
| `ProductsController.DeleteProduct` | Controllers/ProductsController.cs:106-131 | Unreachable: 500. Missing row: 404 with nothing changed. Success (204) holds iff the row exists in a reachable database, and then the row is gone, and the trace is exactly the save, then the product key's invalidation, then the all-products key's. |
| `ProductsController.WriteIsolated` | Service/RedisCacheService.cs:31-37 | Writing one key changes what no other key would serve. |
| `ProductsController.ShrinkingKeepsCoherence` | Controllers/RedisCacheController.cs:144 | Any removal from the cache (invalidation, the admin actions) keeps it coherent with the database. |
| `ProductsController.GetAllKeepsCoherence` | Controllers/ProductsController.cs:24-39 | The all-products read keeps the cache coherent. What it writes back is the current listing. |
| `ProductsController.GetProductKeepsCoherence` | Controllers/ProductsController.cs:41-58 | A product read keeps the cache coherent. What it writes back is the current row. |
| `ProductsController.CreateKeepsCoherence` | Controllers/ProductsController.cs:60-78 | On a well-formed table, create keeps the cache coherent when its invalidation goes through. |
| `ProductsController.UpdateKeepsCoherence` | Controllers/ProductsController.cs:80-104 | Update keeps the cache coherent when both invalidations go through. |
| `ProductsController.DeleteKeepsCoherence` | Controllers/ProductsController.cs:106-131 | Delete keeps the cache coherent when both invalidations go through. |
| `ProductsController.GetProductServesDb` | Controllers/ProductsController.cs:41-58 | With a coherent cache, a returned product is the stored row and a 404 means no such row. A reachable database never yields 500. |
| `ProductsController.GetAllServesDb` | Controllers/ProductsController.cs:24-39 | With a coherent cache, the returned list is the table's listing. A reachable database always answers 200. |
| `ProductsController.ReadAfterUpdate` | Controllers/ProductsController.cs:80-104 | Read-your-writes: after a successful update whose invalidations go through, reading the product returns the new row. |
| `ProductsController.EmptyCacheCoherent` | Controllers/ProductsController.cs:24-58 | An empty cache is coherent with any table, so the invariant holds from start-up. |

## Left out

- I/O, `async`/`await` and the network. Every operation is a function of its inputs. `Task.WhenAll` in update and delete becomes two removals issued one after the other; they touch distinct keys and cannot fail.
- Logging (`ILogger`) has no effect on any outcome and is not modelled.
- Time and expiry: an entry records its sliding expiration, but nothing expires. `ProductsController.ShrinkingKeepsCoherence` covers expiry as one more removal.
- JSON serialization is a pair of functions, `serialize` and `deserialize`, that the model does not look inside. Round-tripping is a hypothesis (`CacheService.RoundTrips`) where a property needs it.
- The Redis driver and the multiplexer are not modelled. The probe result and the server's key enumeration are inputs. Enumeration errors are modelled as happening before the loop starts, though the real `Keys()` is lazy. Exception messages are placeholders, except those of `String.Replace` and `SlidingExpiration`.
- `Program.cs` configuration (dependency injection, connect timeouts, abort-on-fail) is not modelled. `RedisSettings` is a record, and the instance name lives in the cache value.
- `Product.cs` is not part of this model. `Price` is an `int`. `Id` is taken to be the conventional identity key: the database assigns Ids from `nextId` and refuses an explicit one.
- `Text.IntToString`: renders with an ASCII '-' and ASCII digits. `$"Product_{id}"` formats with the current culture, whose negative sign can differ. Key disjointness and injectivity do not depend on the sign's spelling.
- `Data.GenerateDummyProducts`: ignores the runtime's maximum array length. A count too large to allocate throws `OutOfMemoryException` in the source and succeeds in the model. The only caller passes 600.
- `Data.Find`, `Data.ToList`: a database failure is one "unreachable" flag. The particular Entity Framework exception is not modelled; the controller maps every exception to the same 500.
- `CacheService.GetOrSet`: a corrupt cache entry (one that does not deserialize) is not treated as a miss and is never rewritten. The deserializer's exception reaches the catch block: one loader call, and the corrupt entry stays until it expires or is removed.
- `Data.Listing`: `ToListAsync()` without `OrderBy` has no guaranteed order. The model fixes ascending key order, the usual clustered-index scan, so that the cached list can be compared with the database's listing.

## Findings

| source | as written | input that shows it | evidently intended | confidence | as-written member | corrected member |
|---|---|---|---|---|---|---|
| Controllers/RedisCacheController.cs:61 | Every occurrence of the instance name is deleted from each raw key, anywhere in it. With the default empty instance name, `Replace` throws and the action answers 500. | Instance name "a", stored key "banana" (raw "abanana"): listed as "bnn" with value "null". | Remove the instance-name prefix once, from the front, and list only the application's keys. | high, not executed | `CacheController.ListAllManglesKeys` | `CacheController.GetAllCachedKeysAndValuesScoped` |
| Controllers/RedisCacheController.cs:118 | `instanceName + ":"` is deleted, although the cache client prefixes the instance name verbatim. `RemoveAsync` then prefixes again, so the removal misses the key. | Instance name "app:", raw key "app:x": it removes "app:app:x", reports 200, and "app:x" stays. | Remove exactly the enumerated keys of the application. | high, not executed | `CacheController.ClearAllLeavesEntries` | `CacheController.ClearAllCacheEntriesScoped` |

=== FILE: cache_controller.dfy ===
/** `RedisCacheController`: the administrative surface over the cache. Each
    action first probes the multiplexer's connection; the store is only
    touched when the probe says connected. */
module CacheController {
  import opened Outcomes
  import opened Text
  import opened Store

  /** What reading `IConnectionMultiplexer.IsConnected` does. */
  datatype Probe = Connected | Disconnected | ProbeThrows

  /** What `GetServer(GetEndPoints().First()).Keys()` yields: the raw keys in
      the server's enumeration order, or the exception that enumeration (or
      finding the endpoint) throws. */
  datatype Enumeration = Enumerated(keys: seq<string>) | EnumerationFailed(error: Exception)

  datatype KeyValue = KeyValue(key: string, value: string)

  /** The anonymous objects the actions serialize as response bodies. */
  datatype Body =
    | StatusBody(status: string)
    | EntriesBody(entries: seq<KeyValue>)
    | EntryBody(key: string, value: string)
    | MessageBody(message: string)
    | DetailsBody(message: string, details: string)
    | ErrorBody(message: string, error: string)

  datatype Response = Response(code: int, body: Body)

  /** A response and the cache it leaves behind. */
  datatype AdminStep = AdminStep(response: Response, cache: Cache)

  const UnavailableMessage := "Redis server is currently unavailable"
  const Unavailable := Response(503, MessageBody(UnavailableMessage))

  /** `IsRedisConnected()`: a probe that throws reads as not connected. */
  function IsRedisConnected(probe: Probe): (up: bool)
    ensures up <==> probe == Connected
  {
    match probe
    case Connected => true
    case Disconnected => false
    case ProbeThrows => false
  }

  /** `GetRedisStatus()`: always 200. */
  function GetRedisStatus(probe: Probe): (r: Response)
    ensures r.code == 200
    ensures r.body == StatusBody("Connected") <==> probe == Connected
    ensures r.body == StatusBody("Redis server down") <==> probe != Connected
  {
    Response(200, StatusBody(if IsRedisConnected(probe) then "Connected" else "Redis server down"))
  }

  /** The two catch clauses every store-touching action ends with. */
  function Caught(e: Exception, failure: string): (r: Response)
    ensures r.code == 503 <==> e.RedisConnectionException?
    ensures r.code == 500 <==> !e.RedisConnectionException?
    ensures r.code == 503 ==> r.body == DetailsBody(UnavailableMessage, e.message)
    ensures r.code == 500 ==> r.body == ErrorBody(failure, e.message)
  {
    if e.RedisConnectionException? then Response(503, DetailsBody(UnavailableMessage, e.message))
    else Response(500, ErrorBody(failure, e.message))
  }

  /** The enumeration loop: one step per enumerated key, in order, stopping at
      the first step that throws. */
  function Collect(keys: seq<string>, step: string -> Attempt<KeyValue>): (r: Attempt<seq<KeyValue>>)
    ensures r.Done? <==> forall i :: 0 <= i < |keys| ==> step(keys[i]).Done?
    ensures r.Done? ==> |r.value| == |keys| && forall i :: 0 <= i < |keys| ==> r.value[i] == step(keys[i]).value
    ensures r.Threw? ==>
      exists i :: 0 <= i < |keys| && step(keys[i]).Threw? && r.error == step(keys[i]).error
        && forall j :: 0 <= j < i ==> step(keys[j]).Done?
    decreases |keys|
  {
    if |keys| == 0 then Done([])
    else
      match step(keys[0])
      case Threw(e) => Threw(e)
      case Done(kv) =>
        match Collect(keys[1..], step)
        case Threw(e) => Threw(e)
        case Done(rest) => Done([kv] + rest)
  }

  /** The exception one iteration of the remove loop throws, if any: computing
      the key, or removing it. */
  function RemovalError(cache: Cache, target: string -> Attempt<string>, raw: string): (r: Option<Exception>)
    ensures r.None? <==> target(raw).Done? && RemoveHealthy(cache, target(raw).value)
  {
    match target(raw)
    case Threw(e) => Some(e)
    case Done(key) =>
      match Remove(cache, key)
      case Threw(e) => Some(e)
      case Done(_) => None
  }

  /** Iteration `i` is the first of the remove loop to throw, and throws `failure`. */
  predicate FirstRemovalError(cache: Cache, target: string -> Attempt<string>, keys: seq<string>, i: int, failure: Option<Exception>) {
    && 0 <= i < |keys|
    && RemovalError(cache, target, keys[i]) == failure
    && failure.Some?
    && forall j :: 0 <= j < i ==> RemovalError(cache, target, keys[j]).None?
  }

  /** The raw keys the iterations over `done` hand to the server: every
      target that computes, under the instance name. */
  function Addressed(instanceName: string, target: string -> Attempt<string>, done: seq<string>): set<string> {
    set i | 0 <= i < |done| && target(done[i]).Done? :: instanceName + target(done[i]).value
  }

  /** The remove loop stopped at iteration `i` with `failure`: the removals of
      the iterations before it stay done, and no later target was sent. */
  predicate StoppedAt(cache: Cache, target: string -> Attempt<string>, keys: seq<string>, i: int, failure: Option<Exception>, after: Cache) {
    && FirstRemovalError(cache, target, keys, i, failure)
    && after.entries == cache.entries - Addressed(cache.instanceName, target, keys[..i])
  }

  /** The remove loop: for each enumerated key, compute the key to hand to
      `RemoveAsync` and remove it, stopping at the first exception; the
      removals done before it stay done. */
  function RemoveEach(cache: Cache, keys: seq<string>, target: string -> Attempt<string>): (r: (Cache, Option<Exception>))
    ensures Shrunk(cache, r.0)
    // a failure is the first failing iteration's exception, and the loop is not transactional
    ensures r.1.Some? ==> exists i :: StoppedAt(cache, target, keys, i, r.1, r.0)
    ensures r.1.None? ==> r.0.entries == cache.entries - Addressed(cache.instanceName, target, keys)
    ensures r.1.None? <==> forall i :: 0 <= i < |keys| ==> target(keys[i]).Done? && RemoveHealthy(cache, target(keys[i]).value)
    ensures r.1.None? ==> forall i :: 0 <= i < |keys| ==> RawKey(cache, target(keys[i]).value) !in r.0.entries
    ensures forall k :: k in cache.entries && k !in r.0.entries ==>
      exists i :: 0 <= i < |keys| && target(keys[i]).Done? && RawKey(cache, target(keys[i]).value) == k
    decreases |keys|
  {
    if |keys| == 0 then (cache, None)
    else
      match target(keys[0])
      case Threw(e) =>
        assert keys[..0] == [];
        assert StoppedAt(cache, target, keys, 0, Some(e), cache);
        (cache, Some(e))
      case Done(key) =>
        match Remove(cache, key)
        case Threw(e) =>
          assert keys[..0] == [];
          assert StoppedAt(cache, target, keys, 0, Some(e), cache);
          (cache, Some(e))
        case Done(c) =>
          var r := RemoveEach(c, keys[1..], target);
          RemoveEachStep(cache, c, keys, target, key, r);
          RemoveEachFailureStep(cache, c, keys, target, key, r);
          r
  }

  /** The inductive step of `RemoveEach`, as a lemma of its own. */
  lemma RemoveEachStep(cache: Cache, c: Cache, keys: seq<string>, target: string -> Attempt<string>, key: string,
                       r: (Cache, Option<Exception>))
    requires |keys| > 0 && target(keys[0]) == Done(key) && Remove(cache, key) == Done(c)
    requires Shrunk(c, r.0)
    requires r.1.None? <==> forall i :: 0 <= i < |keys| - 1 ==> target(keys[1..][i]).Done? && RemoveHealthy(c, target(keys[1..][i]).value)
    requires r.1.None? ==> forall i :: 0 <= i < |keys| - 1 ==> RawKey(c, target(keys[1..][i]).value) !in r.0.entries
    requires forall k :: k in c.entries && k !in r.0.entries ==>
      exists i :: 0 <= i < |keys| - 1 && target(keys[1..][i]).Done? && RawKey(c, target(keys[1..][i]).value) == k
    ensures Shrunk(cache, r.0)
    ensures r.1.None? <==> forall i :: 0 <= i < |keys| ==> target(keys[i]).Done? && RemoveHealthy(cache, target(keys[i]).value)
    ensures r.1.None? ==> forall i :: 0 <= i < |keys| ==> RawKey(cache, target(keys[i]).value) !in r.0.entries
    ensures forall k :: k in cache.entries && k !in r.0.entries ==>
      exists i :: 0 <= i < |keys| && target(keys[i]).Done? && RawKey(cache, target(keys[i]).value) == k
  {
    var rest := keys[1..];
    assert forall i :: 0 <= i < |rest| ==> rest[i] == keys[i + 1];
    assert c == cache.(entries := cache.entries - {RawKey(cache, key)});
    // the removal changes neither the prefix nor which keys are healthy
    assert forall x :: RawKey(c, x) == RawKey(cache, x);
    assert forall x :: RemoveHealthy(c, x) == RemoveHealthy(cache, x);
    assert RemoveHealthy(cache, key);
    if forall i :: 0 <= i < |keys| ==> target(keys[i]).Done? && RemoveHealthy(cache, target(keys[i]).value) {
      forall i | 0 <= i < |keys| - 1
        ensures target(rest[i]).Done? && RemoveHealthy(c, target(rest[i]).value)
      {
        assert rest[i] == keys[i + 1];
      }
      assert r.1.None?;
    }
    if r.1.None? {
      forall i | 0 <= i < |keys|
        ensures target(keys[i]).Done? && RemoveHealthy(cache, target(keys[i]).value)
        ensures RawKey(cache, target(keys[i]).value) !in r.0.entries
      {
        if i > 0 {
          assert keys[i] == rest[i - 1];
          assert target(rest[i - 1]).Done? && RemoveHealthy(c, target(rest[i - 1]).value);
          assert RawKey(c, target(rest[i - 1]).value) !in r.0.entries;
        }
      }
    }
    forall k | k in cache.entries && k !in r.0.entries
      ensures exists i :: 0 <= i < |keys| && target(keys[i]).Done? && RawKey(cache, target(keys[i]).value) == k
    {
      if k == RawKey(cache, key) {
        assert target(keys[0]).Done? && RawKey(cache, target(keys[0]).value) == k;
      } else {
        var i :| 0 <= i < |keys| - 1 && target(rest[i]).Done? && RawKey(c, target(rest[i]).value) == k;
        assert target(keys[i + 1]).Done? && RawKey(cache, target(keys[i + 1]).value) == k;
      }
    }
  }

  /** The inductive step of `RemoveEach`'s stopping clauses: a removal
      changes no key's health, so the later iterations fail as they would have
      on the original store, and the first removal joins those done. */
  lemma RemoveEachFailureStep(cache: Cache, c: Cache, keys: seq<string>, target: string -> Attempt<string>, key: string,
                              r: (Cache, Option<Exception>))
    requires |keys| > 0 && target(keys[0]) == Done(key) && Remove(cache, key) == Done(c)
    requires r.1.Some? ==> exists i :: StoppedAt(c, target, keys[1..], i, r.1, r.0)
    requires r.1.None? ==> r.0.entries == c.entries - Addressed(c.instanceName, target, keys[1..])
    ensures r.1.Some? ==> exists i :: StoppedAt(cache, target, keys, i, r.1, r.0)
    ensures r.1.None? ==> r.0.entries == cache.entries - Addressed(cache.instanceName, target, keys)
  {
    if r.1.Some? {
      var i :| StoppedAt(c, target, keys[1..], i, r.1, r.0);
      StoppedAtStep(cache, c, keys, target, key, i, r.1, r.0);
    } else {
      AddressedStep(cache.instanceName, target, keys, key);
      RemoveTwice(cache.entries, cache.instanceName + key, Addressed(cache.instanceName, target, keys[1..]));
    }
  }

  /** Stopping at iteration `i` after a successful first removal is stopping
      at `i + 1` of the whole loop. */
  lemma StoppedAtStep(cache: Cache, c: Cache, keys: seq<string>, target: string -> Attempt<string>, key: string,
                      i: int, failure: Option<Exception>, after: Cache)
    requires |keys| > 0 && target(keys[0]) == Done(key) && Remove(cache, key) == Done(c)
    requires StoppedAt(c, target, keys[1..], i, failure, after)
    ensures StoppedAt(cache, target, keys, i + 1, failure, after)
  {
    var name := cache.instanceName;
    assert c.entries == cache.entries - {name + key} && c.instanceName == name;
    FirstRemovalErrorStep(cache, c, keys, target, key, i, failure);
    var done := keys[..i + 1];
    assert done[1..] == keys[1..][..i];
    AddressedStep(name, target, done, key);
    RemoveTwice(cache.entries, name + key, Addressed(name, target, keys[1..][..i]));
  }

  /** A first failure at iteration `i` after a successful first removal is a
      first failure at `i + 1` of the whole loop. */
  lemma FirstRemovalErrorStep(cache: Cache, c: Cache, keys: seq<string>, target: string -> Attempt<string>, key: string,
                              i: int, failure: Option<Exception>)
    requires |keys| > 0 && target(keys[0]) == Done(key) && Remove(cache, key) == Done(c)
    requires FirstRemovalError(c, target, keys[1..], i, failure)
    ensures FirstRemovalError(cache, target, keys, i + 1, failure)
  {
    var rest := keys[1..];
    assert c == cache.(entries := cache.entries - {RawKey(cache, key)});
    assert forall x :: RemovalError(c, target, x) == RemovalError(cache, target, x);
    assert RemovalError(cache, target, keys[0]).None?;
    forall j | 0 <= j < i + 1
      ensures RemovalError(cache, target, keys[j]).None?
    {
      if j > 0 {
        assert keys[j] == rest[j - 1];
      }
    }
    assert keys[i + 1] == rest[i];
  }

  /** Removing one key and then a set of keys removes their union. */
  lemma RemoveTwice<K, V>(m: map<K, V>, x: K, s: set<K>)
    ensures (m - {x}) - s == m - ({x} + s)
  {
  }

  /** The raw keys addressed by a run of iterations whose first target computes. */
  lemma AddressedStep(name: string, target: string -> Attempt<string>, done: seq<string>, key: string)
    requires |done| > 0 && target(done[0]) == Done(key)
    ensures Addressed(name, target, done) == {name + key} + Addressed(name, target, done[1..])
  {
    var rest := done[1..];
    forall k | k in Addressed(name, target, done)
      ensures k in {name + key} + Addressed(name, target, rest)
    {
      var i :| 0 <= i < |done| && target(done[i]).Done? && name + target(done[i]).value == k;
      if i > 0 {
        assert done[i] == rest[i - 1];
      }
    }
    forall k | k in Addressed(name, target, rest)
      ensures k in Addressed(name, target, done)
    {
      var i :| 0 <= i < |rest| && target(rest[i]).Done? && name + target(rest[i]).value == k;
      assert rest[i] == done[i + 1];
    }
    assert name + key in Addressed(name, target, done) by {
      assert target(done[0]).Done? && name + target(done[0]).value == name + key;
    }
  }

  // ---------------------------------------------------------------------
  // The actions, as written

  /** One iteration of the list-all loop: strip every occurrence of the
      instance name, read the stripped key, report a missing value as "null". */
  function ListedAsWritten(cache: Cache, instanceName: string, raw: string): Attempt<KeyValue> {
    match Replace(raw, instanceName, "")
    case Threw(e) => Threw(e)
    case Done(key) =>
      match GetString(cache, key)
      case Threw(e) => Threw(e)
      case Done(v) => Done(KeyValue(key, v.GetOr("null")))
  }

  const ListFailure := "Failed to retrieve cache entries"

  /** Iteration `i` is the first of the list-all loop to throw. */
  predicate FirstListFailure(cache: Cache, keys: seq<string>, i: int) {
    && 0 <= i < |keys|
    && ListedAsWritten(cache, cache.instanceName, keys[i]).Threw?
    && forall j :: 0 <= j < i ==> ListedAsWritten(cache, cache.instanceName, keys[j]).Done?
  }

  /** `GetAllCachedKeysAndValues()`. The instance name the controller reads
      from configuration is the one the cache client prefixes keys with. */
  function GetAllCachedKeysAndValues(probe: Probe, cache: Cache, enumeration: Enumeration): (r: Response)
    ensures probe != Connected ==> r == Unavailable
    ensures probe == Connected && enumeration.EnumerationFailed? ==> r == Caught(enumeration.error, ListFailure)
    ensures r.code == 200 ==>
      && enumeration.Enumerated? && r.body.EntriesBody?
      && |r.body.entries| == |enumeration.keys|
      && forall i :: 0 <= i < |enumeration.keys| ==>
           ListedAsWritten(cache, cache.instanceName, enumeration.keys[i]) == Done(r.body.entries[i])
    // the listing succeeds exactly when every key's iteration does
    ensures probe == Connected && enumeration.Enumerated? ==>
      (r.code == 200 <==> forall i :: 0 <= i < |enumeration.keys| ==>
         ListedAsWritten(cache, cache.instanceName, enumeration.keys[i]).Done?)
    // otherwise the first failing iteration's exception goes through the catch clauses
    ensures probe == Connected && enumeration.Enumerated? && r.code != 200 ==>
      exists i :: FirstListFailure(cache, enumeration.keys, i)
        && r == Caught(ListedAsWritten(cache, cache.instanceName, enumeration.keys[i]).error, ListFailure)
    // a non-empty instance name and a readable store always list
    ensures probe == Connected && enumeration.Enumerated? && cache.instanceName != "" && cache.reachable && cache.readFaults == map[]
      ==> r.code == 200
    // with the default empty instance name, any key at all ends in the generic 500
    ensures probe == Connected && enumeration.Enumerated? && |enumeration.keys| > 0 && cache.instanceName == ""
      ==> r == Response(500, ErrorBody(ListFailure, ZeroLengthMessage))
    ensures r.code in {200, 500, 503}
  {
    if !IsRedisConnected(probe) then Unavailable
    else
      match enumeration
      case EnumerationFailed(e) => Caught(e, ListFailure)
      case Enumerated(keys) =>
        match Collect(keys, raw => ListedAsWritten(cache, cache.instanceName, raw))
        case Threw(e) =>
          assert exists i :: FirstListFailure(cache, keys, i) && e == ListedAsWritten(cache, cache.instanceName, keys[i]).error;
          Caught(e, ListFailure)
        case Done(entries) => Response(200, EntriesBody(entries))
  }

  const EntryFailure := "Failed to retrieve cache entry"

  /** `GetCacheEntryByKey(key)`. */
  function GetCacheEntryByKey(probe: Probe, cache: Cache, key: string): (r: Response)
    ensures probe != Connected ==> r == Unavailable
    ensures probe == Connected && ReadHealthy(cache, key) ==>
      && (RawKey(cache, key) !in cache.entries ==> r == Response(404, MessageBody("Cache entry not found.")))
      && (RawKey(cache, key) in cache.entries ==> r == Response(200, EntryBody(key, cache.entries[RawKey(cache, key)].data)))
    ensures probe == Connected && !ReadHealthy(cache, key) ==> r == Caught(GetString(cache, key).error, EntryFailure)
    ensures r.code in {200, 404, 500, 503}
  {
    if !IsRedisConnected(probe) then Unavailable
    else
      match GetString(cache, key)
      case Threw(e) => Caught(e, EntryFailure)
      case Done(Null) => Response(404, MessageBody("Cache entry not found."))
      case Done(NonNull(v)) => Response(200, EntryBody(key, v))
  }

  /** The key clear-all hands to `RemoveAsync`: every occurrence of the
      instance name followed by ':' removed. */
  function ClearTargetAsWritten(instanceName: string, raw: string): Attempt<string> {
    Replace(raw, instanceName + ":", "")
  }

  function ClearTarget(instanceName: string): string -> Attempt<string> {
    raw => ClearTargetAsWritten(instanceName, raw)
  }

  const ClearFailure := "Failed to clear cache entries"
  const ClearedAll := Response(200, MessageBody("All cache entries cleared."))

  /** `ClearAllCacheEntries()`. */
  function ClearAllCacheEntries(probe: Probe, cache: Cache, enumeration: Enumeration): (r: AdminStep)
    ensures Shrunk(cache, r.cache)
    ensures probe != Connected ==> r == AdminStep(Unavailable, cache)
    ensures probe == Connected && enumeration.EnumerationFailed? ==> r == AdminStep(Caught(enumeration.error, ClearFailure), cache)
    ensures r.response.code == 200 ==>
      && r.response == ClearedAll && enumeration.Enumerated?
      && forall i :: 0 <= i < |enumeration.keys| ==>
           RawKey(cache, ReplaceAll(enumeration.keys[i], cache.instanceName + ":", "")) !in r.cache.entries
    // the pattern is never empty, so the only way to fail midway is a failing removal
    ensures probe == Connected && enumeration.Enumerated? ==>
      (r.response == ClearedAll <==> forall i :: 0 <= i < |enumeration.keys| ==>
         RemoveHealthy(cache, ReplaceAll(enumeration.keys[i], cache.instanceName + ":", "")))
    // nothing but the computed targets is removed
    ensures forall k :: k in cache.entries && k !in r.cache.entries ==>
      && enumeration.Enumerated?
      && exists i :: 0 <= i < |enumeration.keys| && RawKey(cache, ReplaceAll(enumeration.keys[i], cache.instanceName + ":", "")) == k
    // a failing removal: the first one's exception goes through the catch clauses
    // and the removals before it stay done, while no later target is sent
    ensures probe == Connected && enumeration.Enumerated? && r.response != ClearedAll ==>
      exists i, e :: StoppedAt(cache, ClearTarget(cache.instanceName), enumeration.keys, i, Some(e), r.cache)
        && r.response == Caught(e, ClearFailure)
    ensures r.response == ClearedAll ==>
      r.cache.entries == cache.entries - Addressed(cache.instanceName, ClearTarget(cache.instanceName), enumeration.keys)
    ensures r.response.code in {200, 500, 503}
  {
    if !IsRedisConnected(probe) then AdminStep(Unavailable, cache)
    else
      match enumeration
      case EnumerationFailed(e) => AdminStep(Caught(e, ClearFailure), cache)
      case Enumerated(keys) =>
        var (c, failure) := RemoveEach(cache, keys, ClearTarget(cache.instanceName));
        match failure
        case Some(e) => AdminStep(Caught(e, ClearFailure), c)
        case None => AdminStep(ClearedAll, c)
  }

  const DeleteFailure := "Failed to clear cache entry"

  /** `ClearCacheEntryByKey(key)`: succeeds whether or not the key existed. */
  function ClearCacheEntryByKey(probe: Probe, cache: Cache, key: string): (r: AdminStep)
    ensures Shrunk(cache, r.cache)
    ensures probe != Connected ==> r == AdminStep(Unavailable, cache)
    ensures probe == Connected && RemoveHealthy(cache, key) ==>
      && r.response == Response(200, MessageBody("Cache entry '" + key + "' cleared."))
      && r.cache.entries == cache.entries - {RawKey(cache, key)}
    ensures probe == Connected && !RemoveHealthy(cache, key) ==>
      r == AdminStep(Caught(Remove(cache, key).error, DeleteFailure), cache)
  {
    if !IsRedisConnected(probe) then AdminStep(Unavailable, cache)
    else
      match Remove(cache, key)
      case Threw(e) => AdminStep(Caught(e, DeleteFailure), cache)
      case Done(c) => AdminStep(Response(200, MessageBody("Cache entry '" + key + "' cleared.")), c)
  }

  // ---------------------------------------------------------------------
  // What the two enumerating actions do wrong, and the corrected versions

  /** With instance name "a", the entry the application stored under
      "banana" (raw key "abanana") is listed as "bnn": every "a" is stripped,
      not just the prefix, and the value read back under the mangled key is
      missing, so it is reported as "null". */
  lemma ListAllManglesKeys()
    ensures
      var cache := Cache("a", map["abanana" := Entry("42", 5)], true, map[], map[], map[]);
      GetAllCachedKeysAndValues(Connected, cache, Enumerated(["abanana"]))
        == Response(200, EntriesBody([KeyValue("bnn", "null")]))
  {
    var cache := Cache("a", map["abanana" := Entry("42", 5)], true, map[], map[], map[]);
    AbananaStripped();
    assert RawKey(cache, "bnn") == "abnn";
    assert "abnn" !in cache.entries;
    assert ListedAsWritten(cache, "a", "abanana") == Done(KeyValue("bnn", "null"));
  }

  /** Deleting every "a" from "abanana", unfolded from the end of the string
      forwards. */
  lemma AbananaStripped()
    ensures ReplaceAll("abanana", "a", "") == "bnn"
  {
    NanaStripped();
    assert "anana"[..1] == "a" && "anana"[1..] == "nana";
    assert ReplaceAll("anana", "a", "") == "nn";
    assert "banana"[..1] == "b" && "banana"[1..] == "anana";
    assert ReplaceAll("banana", "a", "") == "bnn";
    assert "abanana"[..1] == "a" && "abanana"[1..] == "banana";
  }

  lemma NanaStripped()
    ensures ReplaceAll("nana", "a", "") == "nn"
  {
    assert "a"[..1] == "a" && "a"[1..] == "";
    assert ReplaceAll("a", "a", "") == "";
    assert "na"[..1] == "n" && "na"[1..] == "a";
    assert ReplaceAll("na", "a", "") == "n";
    assert "ana"[..1] == "a" && "ana"[1..] == "na";
    assert ReplaceAll("ana", "a", "") == "n";
    assert "nana"[..1] == "n" && "nana"[1..] == "ana";
  }

  /** With the conventional instance name "app:", clear-all strips "app::",
      which the raw key "app:x" does not contain, so it removes "app:app:x"
      instead: it reports success and the entry is still there. */
  lemma ClearAllLeavesEntries()
    ensures
      var cache := Cache("app:", map["app:x" := Entry("42", 5)], true, map[], map[], map[]);
      ClearAllCacheEntries(Connected, cache, Enumerated(["app:x"])) == AdminStep(ClearedAll, cache)
  {
    var cache := Cache("app:", map["app:x" := Entry("42", 5)], true, map[], map[], map[]);
    assert "app:x"[..5] != "app::" by { assert "app:x"[4] != "app::"[4]; }
    assert "app:x"[1..] == "pp:x";
    assert ReplaceAll("app:x", "app::", "") == "app:x";
    assert RawKey(cache, "app:x") == "app:app:x";
    assert cache.entries - {"app:app:x"} == cache.entries;
  }

  /** List-all as written, for every input: with a non-empty instance name
      and a readable store, the entry the application stored under `k` is
      listed under `k` exactly when the instance name does not occur inside
      `k`, and then with its stored value. */
  lemma ListAllAsWrittenKeepsKey(cache: Cache, keys: seq<string>, i: int, k: string)
    requires cache.instanceName != "" && cache.reachable && cache.readFaults == map[]
    requires 0 <= i < |keys| && keys[i] == RawKey(cache, k) && RawKey(cache, k) in cache.entries
    ensures
      var r := GetAllCachedKeysAndValues(Connected, cache, Enumerated(keys));
      && r.code == 200
      && (r.body.entries[i].key == k <==> !Occurs(k, cache.instanceName))
      && (r.body.entries[i].key == k ==> r.body.entries[i].value == cache.entries[RawKey(cache, k)].data)
  {
    var r := GetAllCachedKeysAndValues(Connected, cache, Enumerated(keys));
    StripByReplace(cache.instanceName, k);
    assert ListedAsWritten(cache, cache.instanceName, keys[i]) == Done(r.body.entries[i]);
  }

  /** Clear-all as written, for every input in which no enumerated key
      contains `instanceName + ":"` and removals are healthy: it reports
      success, and the entry stored under `k` is removed exactly when `k`
      itself, rather than its raw key, was enumerated. */
  lemma ClearAllAsWrittenRemoves(cache: Cache, keys: seq<string>, k: string)
    requires cache.reachable && cache.removeFaults == map[]
    requires forall j :: 0 <= j < |keys| ==> !Occurs(keys[j], cache.instanceName + ":")
    requires RawKey(cache, k) in cache.entries
    ensures RawKey(cache, k) !in ClearAllCacheEntries(Connected, cache, Enumerated(keys)).cache.entries <==> k in keys
    ensures ClearAllCacheEntries(Connected, cache, Enumerated(keys)).response == ClearedAll
  {
    var pat := cache.instanceName + ":";
    var r := ClearAllCacheEntries(Connected, cache, Enumerated(keys));
    forall j | 0 <= j < |keys|
      ensures ReplaceAll(keys[j], pat, "") == keys[j]
    {
      ReplaceAbsent(keys[j], pat, "");
    }
    if RawKey(cache, k) !in r.cache.entries {
      var j :| 0 <= j < |keys| && RawKey(cache, ReplaceAll(keys[j], pat, "")) == RawKey(cache, k);
      RawKeyInjective(cache, keys[j], k);
    }
    if k in keys {
      var j :| 0 <= j < |keys| && keys[j] == k;
      assert RawKey(cache, ReplaceAll(keys[j], pat, "")) !in r.cache.entries;
    }
  }

  /** The key clear-all computes for the application's own raw key, when that
      does not contain `instanceName + ":"`, is the raw key itself, which the
      client prefixes once more: the removal never addresses the entry. */
  lemma ClearAllAsWrittenMissesOwnKey(cache: Cache, k: string)
    requires cache.instanceName != ""
    requires !Occurs(RawKey(cache, k), cache.instanceName + ":")
    ensures ClearTargetAsWritten(cache.instanceName, RawKey(cache, k)) == Done(RawKey(cache, k))
    ensures RawKey(cache, k) != k
    ensures RawKey(cache, RawKey(cache, k)) != RawKey(cache, k)
  {
    ReplaceAbsent(RawKey(cache, k), cache.instanceName + ":", "");
  }

  /** The raw keys that belong to this application, in enumeration order. */
  function Scoped(keys: seq<string>, instanceName: string): (r: seq<string>)
    ensures forall k :: k in r <==> k in keys && StartsWith(k, instanceName)
    decreases |keys|
  {
    if |keys| == 0 then []
    else if StartsWith(keys[0], instanceName) then [keys[0]] + Scoped(keys[1..], instanceName)
    else Scoped(keys[1..], instanceName)
  }

  /** Filtering a single key keeps it exactly when it carries the prefix. */
  lemma ScopedOne(k: string, instanceName: string)
    ensures Scoped([k], instanceName) == if StartsWith(k, instanceName) then [k] else []
  {
    assert [k][1..] == [];
  }

  /** Filtering distributes over concatenation: the application's keys keep
      their enumeration order, each listed once per enumeration. Together
      with `ScopedOne` this determines `Scoped` on every sequence. */
  lemma {:induction false} ScopedAppend(a: seq<string>, b: seq<string>, instanceName: string)
    ensures Scoped(a + b, instanceName) == Scoped(a, instanceName) + Scoped(b, instanceName)
    decreases |a|
  {
    if |a| > 0 {
      assert (a + b)[0] == a[0];
      assert (a + b)[1..] == a[1..] + b;
      ScopedAppend(a[1..], b, instanceName);
    } else {
      assert a + b == b;
    }
  }

  /** The key a caller used for a raw key: the instance name removed once,
      from the front only. */
  function StripPrefix(raw: string, instanceName: string): (key: string)
    ensures StartsWith(raw, instanceName) ==> instanceName + key == raw
  {
    if StartsWith(raw, instanceName) then raw[|instanceName|..] else raw
  }

  /** The key every caller-visible operation of the cache client addresses is
      recovered exactly: stripping the prefix undoes `RawKey`. */
  lemma StripUndoesRawKey(cache: Cache, key: string)
    ensures StripPrefix(RawKey(cache, key), cache.instanceName) == key
  {
    var raw := RawKey(cache, key);
    assert raw[..|cache.instanceName|] == cache.instanceName;
    assert raw[|cache.instanceName|..] == key;
  }

  function ListedScoped(cache: Cache, raw: string): Attempt<KeyValue> {
    var key := StripPrefix(raw, cache.instanceName);
    match GetString(cache, key)
    case Threw(e) => Threw(e)
    case Done(v) => Done(KeyValue(key, v.GetOr("null")))
  }

  /** Every iteration of the corrected list-all loop succeeds exactly when
      every listed key can be read. */
  lemma ScopedReadsSucceed(cache: Cache, own: seq<string>)
    ensures (forall i :: 0 <= i < |own| ==> ListedScoped(cache, own[i]).Done?) <==>
      forall k :: k in own ==> ReadHealthy(cache, StripPrefix(k, cache.instanceName))
  {
    forall i | 0 <= i < |own|
      ensures ListedScoped(cache, own[i]).Done? <==> ReadHealthy(cache, StripPrefix(own[i], cache.instanceName))
    {
    }
  }

  /** Iteration `i` is the first of the corrected list-all loop to throw. */
  predicate FirstScopedFailure(cache: Cache, own: seq<string>, i: int) {
    && 0 <= i < |own|
    && ListedScoped(cache, own[i]).Threw?
    && forall j :: 0 <= j < i ==> ListedScoped(cache, own[j]).Done?
  }

  /** List-all restricted to the application's own keys, each with its prefix
      removed once. */
  function GetAllCachedKeysAndValuesScoped(probe: Probe, cache: Cache, enumeration: Enumeration): (r: Response)
    ensures probe != Connected ==> r == Unavailable
    ensures probe == Connected && enumeration.EnumerationFailed? ==> r == Caught(enumeration.error, ListFailure)
    // the listing succeeds exactly when every own key can be read
    ensures probe == Connected && enumeration.Enumerated? ==>
      (r.code == 200 <==> forall k :: k in Scoped(enumeration.keys, cache.instanceName) ==>
         ReadHealthy(cache, StripPrefix(k, cache.instanceName)))
    // otherwise the first failing read's exception goes through the catch clauses
    ensures probe == Connected && enumeration.Enumerated? && r.code != 200 ==>
      exists i :: FirstScopedFailure(cache, Scoped(enumeration.keys, cache.instanceName), i)
        && r == Caught(ListedScoped(cache, Scoped(enumeration.keys, cache.instanceName)[i]).error, ListFailure)
    ensures r.code == 200 ==>
      && enumeration.Enumerated? && r.body.EntriesBody?
      && var own := Scoped(enumeration.keys, cache.instanceName);
         && |r.body.entries| == |own|
         && forall i :: 0 <= i < |own| ==>
              && RawKey(cache, r.body.entries[i].key) == own[i]
              && r.body.entries[i].value == (if own[i] in cache.entries then cache.entries[own[i]].data else "null")
    // an empty instance name is no longer an error: a healthy store always lists
    ensures probe == Connected && enumeration.Enumerated? && cache.reachable && cache.readFaults == map[] ==> r.code == 200
  {
    if !IsRedisConnected(probe) then Unavailable
    else
      match enumeration
      case EnumerationFailed(e) => Caught(e, ListFailure)
      case Enumerated(keys) =>
        var own := Scoped(keys, cache.instanceName);
        ScopedReadsSucceed(cache, own);
        match Collect(own, raw => ListedScoped(cache, raw))
        case Threw(e) =>
          assert exists i :: FirstScopedFailure(cache, own, i) && e == ListedScoped(cache, own[i]).error;
          Caught(e, ListFailure)
        case Done(entries) =>
          assert forall i :: 0 <= i < |own| ==> ListedScoped(cache, own[i]) == Done(entries[i]);
          Response(200, EntriesBody(entries))
  }

  /** Listing returns keys in the form callers used to set them: every key
      the application stored, and enumerated, is listed under its own name
      with its value. */
  lemma ListAllScopedRoundTrip(cache: Cache, keys: seq<string>, key: string)
    requires cache.reachable && cache.readFaults == map[]
    requires RawKey(cache, key) in cache.entries && RawKey(cache, key) in keys
    ensures
      var r := GetAllCachedKeysAndValuesScoped(Connected, cache, Enumerated(keys));
      r.code == 200 && KeyValue(key, cache.entries[RawKey(cache, key)].data) in r.body.entries
  {
    var raw := RawKey(cache, key);
    var r := GetAllCachedKeysAndValuesScoped(Connected, cache, Enumerated(keys));
    var own := Scoped(keys, cache.instanceName);
    assert raw[..|cache.instanceName|] == cache.instanceName;
    assert raw in own;
    var i :| 0 <= i < |own| && own[i] == raw;
    var e := r.body.entries[i];
    assert cache.instanceName + e.key == cache.instanceName + key;
    assert e.key == (cache.instanceName + e.key)[|cache.instanceName|..];
    assert e == KeyValue(key, cache.entries[raw].data);
  }

  /** The key the corrected clear-all hands to `RemoveAsync`: the raw key
      with its prefix removed once. */
  function ScopedTarget(instanceName: string): string -> Attempt<string> {
    raw => Done(StripPrefix(raw, instanceName))
  }

  /** Clear-all restricted to the application's own keys, handing each to
      `RemoveAsync` with its prefix removed once, so that it removes the very
      raw key that was enumerated. */
  function ClearAllCacheEntriesScoped(probe: Probe, cache: Cache, enumeration: Enumeration): (r: AdminStep)
    ensures Shrunk(cache, r.cache)
    ensures probe != Connected ==> r == AdminStep(Unavailable, cache)
    ensures probe == Connected && enumeration.EnumerationFailed? ==> r == AdminStep(Caught(enumeration.error, ClearFailure), cache)
    // only the application's enumerated keys are removed; other tenants' keys stay
    ensures forall k :: k in cache.entries && k !in r.cache.entries ==>
      StartsWith(k, cache.instanceName) && enumeration.Enumerated? && k in enumeration.keys
    // with a complete enumeration and healthy removals, none of the application's keys is left
    ensures probe == Connected && enumeration.Enumerated? && cache.reachable && cache.removeFaults == map[]
      && (forall k :: k in cache.entries && StartsWith(k, cache.instanceName) ==> k in enumeration.keys)
      ==> r.response == ClearedAll && forall k :: k in r.cache.entries ==> !StartsWith(k, cache.instanceName)
    // it reports success exactly when every own key's removal goes through, and then all of them are gone
    ensures probe == Connected && enumeration.Enumerated? ==>
      (r.response == ClearedAll <==> forall k :: k in Scoped(enumeration.keys, cache.instanceName) ==>
         RemoveHealthy(cache, StripPrefix(k, cache.instanceName)))
    ensures r.response == ClearedAll ==>
      && enumeration.Enumerated?
      && forall k :: k in Scoped(enumeration.keys, cache.instanceName) ==> k !in r.cache.entries
    // a failing removal: its exception goes through the catch clauses, the
    // removals before it stay done, and no later key is sent
    ensures probe == Connected && enumeration.Enumerated? && r.response != ClearedAll ==>
      exists i, e :: StoppedAt(cache, ScopedTarget(cache.instanceName), Scoped(enumeration.keys, cache.instanceName), i, Some(e), r.cache)
        && r.response == Caught(e, ClearFailure)
  {
    if !IsRedisConnected(probe) then AdminStep(Unavailable, cache)
    else
      match enumeration
      case EnumerationFailed(e) => AdminStep(Caught(e, ClearFailure), cache)
      case Enumerated(keys) =>
        var own := Scoped(keys, cache.instanceName);
        var target := ScopedTarget(cache.instanceName);
        var (c, failure) := RemoveEach(cache, own, target);
        assert forall i :: 0 <= i < |own| ==> RawKey(cache, target(own[i]).value) == own[i];
        match failure
        case Some(e) => AdminStep(Caught(e, ClearFailure), c)
        case None => AdminStep(ClearedAll, c)
  }
}

=== FILE: cache_service.dfy ===
/** `RedisCacheService`: the cache-aside orchestrator (`GetOrSetAsync`) and
    best-effort invalidation (`RemoveAsync`). */
module CacheService {
  import opened Outcomes
  import opened Store

  /** The "Redis" configuration section. */
  datatype RedisSettings = RedisSettings(enabled: bool, connectionString: string, cacheDurationMinutes: int)

  /** `JsonSerializer` for one type `T`, as two functions the model does not
      look inside. `serialize` yields `None` when it throws; `deserialize`
      yields `None` when it throws and may produce null (for the text "null"). */
  datatype Codec<!T> = Codec(serialize: T -> Option<string>, deserialize: string -> Option<Nullable<T>>)

  /** The caller's fallback: `loader(n)` is the outcome of its n-th invocation,
      counting from 0. */
  type Loader<T> = nat -> Attempt<Nullable<T>>

  /** What one `GetOrSetAsync` call produced: its result or exception, the
      cache afterwards, and how many times it invoked the loader. */
  datatype Served<T> = Served(outcome: Attempt<Nullable<T>>, cache: Cache, calls: nat)

  /** Every value that serializes comes back from deserialization unchanged,
      and its serialized form is never the empty string. */
  ghost predicate RoundTrips<T(!new)>(codec: Codec<T>) {
    forall v :: codec.serialize(v).Some? ==>
      && codec.serialize(v).value != ""
      && codec.deserialize(codec.serialize(v).value) == Some(NonNull(v))
  }

  /** The value a successful read of `key` would be served from the cache:
      present, non-empty and deserializable; `None` means a healthy read
      would go on to the loader. */
  function CachedValue<T>(cache: Cache, key: string, codec: Codec<T>): Option<Nullable<T>> {
    var raw := RawKey(cache, key);
    if raw in cache.entries && cache.entries[raw].data != "" then codec.deserialize(cache.entries[raw].data)
    else None
  }

  /** No entry under `key`, or an empty one: `string.IsNullOrEmpty` holds of
      what a read returns. */
  predicate Cold(cache: Cache, key: string) {
    var raw := RawKey(cache, key);
    raw !in cache.entries || cache.entries[raw].data == ""
  }

  /** The write-back step of a miss: serialize, build the entry options, write. */
  function WriteBack<T>(settings: RedisSettings, cache: Cache, key: string, v: T, codec: Codec<T>): Attempt<Cache> {
    match codec.serialize(v)
    case None => Threw(JsonException("serialization failed"))
    case Some(s) =>
      match SlidingExpiration(settings.cacheDurationMinutes)
      case Threw(e) => Threw(e)
      case Done(m) => SetString(cache, key, s, m)
  }

  /** `GetOrSetAsync<T>(key, fallback)`. */
  function GetOrSet<T>(settings: RedisSettings, cache: Cache, key: string, loader: Loader<T>, codec: Codec<T>): (r: Served<T>)
    // the loader runs at most twice, and a loader call's outcome is what is returned or raised
    ensures r.calls <= 2
    ensures r.calls > 0 ==> r.outcome == loader(r.calls - 1)
    // disabled, or the store unreachable: a pure pass-through to one loader call
    ensures !settings.enabled || !cache.reachable ==> r == Served(loader(0), cache, 1)
    // the loader is skipped exactly when a readable entry deserializes, and then that value is returned
    ensures r.calls == 0 <==> settings.enabled && ReadHealthy(cache, key) && CachedValue(cache, key, codec).Some?
    ensures r.calls == 0 ==> r.outcome == Done(CachedValue(cache, key, codec).value) && r.cache == cache
    // a cold key whose loader yields null returns null and writes nothing
    ensures settings.enabled && ReadHealthy(cache, key) && Cold(cache, key) && loader(0) == Done(Null)
      ==> r == Served(Done(Null), cache, 1)
    // a cold key whose loader yields a value writes it back when the write can succeed
    ensures settings.enabled && ReadHealthy(cache, key) && Cold(cache, key)
      && loader(0).Done? && loader(0).value.NonNull? && codec.serialize(loader(0).value.value).Some?
      && settings.cacheDurationMinutes > 0 && WriteHealthy(cache, key)
      ==> r == Served(loader(0), SetString(cache, key, codec.serialize(loader(0).value.value).value, settings.cacheDurationMinutes).value, 1)
    // a failing read goes to the catch block before the loader has run: one loader call
    ensures settings.enabled && !ReadHealthy(cache, key) ==> r == Served(loader(0), cache, 1)
    // a loader that throws on a cold key is invoked once more from the catch block
    ensures settings.enabled && ReadHealthy(cache, key) && Cold(cache, key) && loader(0).Threw?
      ==> r == Served(loader(1), cache, 2)
    // so is one whose value cannot be written back (serialization, expiration or the write fails)
    ensures settings.enabled && ReadHealthy(cache, key) && Cold(cache, key)
      && loader(0).Done? && loader(0).value.NonNull?
      && (codec.serialize(loader(0).value.value).None? || settings.cacheDurationMinutes <= 0 || !WriteHealthy(cache, key))
      ==> r == Served(loader(1), cache, 2)
    // a corrupt entry sends the call to the catch block: one loader call, and the entry is not repaired
    ensures settings.enabled && ReadHealthy(cache, key) && !Cold(cache, key) && CachedValue(cache, key, codec).None?
      ==> r == Served(loader(0), cache, 1)
    // the only change to the store is that write: one entry under key, with the configured sliding expiration
    ensures r.cache != cache ==>
      && r.calls == 1 && loader(0).Done? && loader(0).value.NonNull? && r.outcome == loader(0)
      && codec.serialize(loader(0).value.value).Some?
      && r.cache == cache.(entries := cache.entries[RawKey(cache, key) :=
           Entry(codec.serialize(loader(0).value.value).value, settings.cacheDurationMinutes)])
    // the catch path: a second loader call, and no write
    ensures r.calls == 2 ==> r.cache == cache
  {
    if !settings.enabled then Served(loader(0), cache, 1)
    else
      match GetString(cache, key)
      case Threw(_) => Served(loader(0), cache, 1)
      case Done(cached) =>
        if cached.NonNull? && cached.value != "" then
          match codec.deserialize(cached.value)
          case Some(v) => Served(Done(v), cache, 0)
          case None => Served(loader(0), cache, 1)
        else
          match loader(0)
          case Threw(_) => Served(loader(1), cache, 2)
          case Done(Null) => Served(Done(Null), cache, 1)
          case Done(NonNull(v)) =>
            match WriteBack(settings, cache, key, v, codec)
            case Threw(_) => Served(loader(1), cache, 2)
            case Done(written) => Served(Done(NonNull(v)), written, 1)
  }

  /** `RemoveAsync(key)`: never throws. */
  function RemoveAsync(settings: RedisSettings, cache: Cache, key: string): (r: Cache)
    ensures Shrunk(cache, r)
    ensures forall k :: k in cache.entries && k !in r.entries ==> k == RawKey(cache, key)
    ensures !settings.enabled || !RemoveHealthy(cache, key) ==> r == cache
    ensures settings.enabled && RemoveHealthy(cache, key) ==> r.entries == cache.entries - {RawKey(cache, key)}
  {
    if !settings.enabled then cache
    else
      match Remove(cache, key)
      case Threw(_) => cache
      case Done(c) => c
  }

  /** Write-through population: once a call on a cold key has stored the
      loader's value, the next call returns that value whatever its own
      loader would do, without calling it. */
  lemma SecondCallHits<T(!new)>(settings: RedisSettings, cache: Cache, key: string, first: Loader<T>, second: Loader<T>, codec: Codec<T>, v: T)
    requires settings.enabled && settings.cacheDurationMinutes > 0
    requires ReadHealthy(cache, key) && WriteHealthy(cache, key)
    requires RoundTrips(codec) && codec.serialize(v).Some?
    requires Cold(cache, key)
    requires first(0) == Done(NonNull(v))
    ensures GetOrSet(settings, cache, key, first, codec).outcome == Done(NonNull(v))
    ensures
      var c := GetOrSet(settings, cache, key, first, codec).cache;
      GetOrSet(settings, c, key, second, codec) == Served(Done(NonNull(v)), c, 0)
  {
    var r := GetOrSet(settings, cache, key, first, codec);
    var raw := RawKey(cache, key);
    assert r.cache.entries[raw].data == codec.serialize(v).value;
    assert CachedValue(r.cache, key, codec) == Some(NonNull(v));
  }

  /** A successful invalidation forces the next call to recompute: it cannot
      be served from the cache, and returns one of the loader's outcomes. */
  lemma InvalidateForcesReload<T>(settings: RedisSettings, cache: Cache, key: string, loader: Loader<T>, codec: Codec<T>)
    requires settings.enabled && RemoveHealthy(cache, key)
    ensures
      var r := GetOrSet(settings, RemoveAsync(settings, cache, key), key, loader, codec);
      r.calls >= 1 && (r.outcome == loader(0) || r.outcome == loader(1))
  {
    var c := RemoveAsync(settings, cache, key);
    assert RawKey(c, key) !in c.entries;
  }
}

=== FILE: data.dfy ===
/** `ApplicationDbContext`: the Products table as a map from key to row,
    the handful of Entity Framework operations the controller performs on it,
    and the deterministic seed data. */
module Data {
  import opened Outcomes
  import opened Text

  datatype Product = Product(id: int, name: string, category: string, price: int, quantity: int)

  /** The Products table, the next key the identity column hands out, and
      whether the database can be reached at all. */
  datatype Db = Db(products: map<int, Product>, nextId: int, available: bool)

  /** Every row is stored under its own key, and every key is below the next
      identity value. */
  ghost predicate Valid(db: Db) {
    forall id :: id in db.products ==> db.products[id].id == id && id < db.nextId
  }

  const Unreachable := DbException("the database cannot be reached")
  const ExplicitIdentity :=
    DbException("Cannot insert explicit value for identity column in table 'Products' when IDENTITY_INSERT is set to OFF.")
  const NoRowAffected :=
    DbUpdateConcurrencyException("The database operation was expected to affect 1 row(s), but actually affected 0 row(s).")

  lemma {:induction false} MinExists(s: set<int>)
    requires s != {}
    ensures exists k :: k in s && forall j :: j in s ==> k <= j
    decreases |s|
  {
    assert exists x :: x in s by {
      if forall x :: x !in s {
        assert false;
      }
    }
    var x :| x in s;
    if s == {x} {
      assert forall j :: j in s ==> x <= j;
    } else {
      var rest := s - {x};
      MinExists(rest);
      var m :| m in rest && forall j :: j in rest ==> m <= j;
      var k := if m < x then m else x;
      forall j | j in s
        ensures k <= j
      {
        if j != x {
          assert j in rest;
        }
      }
      assert k in s;
    }
  }

  function MinKey(s: set<int>): (k: int)
    requires s != {}
    ensures k in s && forall j :: j in s ==> k <= j
  {
    MinExists(s);
    var k :| k in s && forall j :: j in s ==> k <= j;
    k
  }

  /** The keys of `s` in ascending order. */
  function SortedKeys(s: set<int>): (r: seq<int>)
    ensures |r| == |s|
    ensures forall k :: k in r <==> k in s
    ensures forall i, j :: 0 <= i < j < |r| ==> r[i] < r[j]
    decreases |s|
  {
    if s == {} then []
    else
      var k := MinKey(s);
      [k] + SortedKeys(s - {k})
  }

  /** `Products.ToListAsync()`: every row once, in ascending key order (the
      order of the clustered primary key). */
  function Listing(products: map<int, Product>): (r: seq<Product>)
    ensures |r| == |products|
    ensures forall p :: p in r ==> p in products.Values
    ensures forall k :: k in products ==> products[k] in r
  {
    var ks := SortedKeys(products.Keys);
    assert forall i :: 0 <= i < |ks| ==> ks[i] in products;
    var r := seq(|ks|, i requires 0 <= i < |ks| => products[ks[i]]);
    RowsListed(products, ks, r);
    r
  }

  /** Looking every key of `ks` up in `products` yields exactly the rows. */
  lemma RowsListed(products: map<int, Product>, ks: seq<int>, r: seq<Product>)
    requires forall k :: k in products ==> k in ks
    requires |r| == |ks| && forall i :: 0 <= i < |ks| ==> ks[i] in products && r[i] == products[ks[i]]
    ensures forall p :: p in r ==> p in products.Values
    ensures forall k :: k in products ==> products[k] in r
  {
    forall p | p in r
      ensures p in products.Values
    {
      var i :| 0 <= i < |r| && r[i] == p;
      assert products[ks[i]] == p;
    }
    forall k | k in products
      ensures products[k] in r
    {
      var i :| 0 <= i < |ks| && ks[i] == k;
      assert r[i] == products[k];
    }
  }

  /** In a well-formed table the listing is ordered by strictly ascending Id. */
  lemma ListingAscending(db: Db)
    requires Valid(db)
    ensures var r := Listing(db.products);
      forall i, j :: 0 <= i < j < |r| ==> r[i].id < r[j].id
  {
    var ks := SortedKeys(db.products.Keys);
    var r := Listing(db.products);
    forall i, j | 0 <= i < j < |r|
      ensures r[i].id < r[j].id
    {
      assert r[i] == db.products[ks[i]] && r[j] == db.products[ks[j]];
    }
  }

  function ToList(db: Db): Attempt<seq<Product>> {
    if !db.available then Threw(Unreachable) else Done(Listing(db.products))
  }

  /** `Products.FindAsync(id)`. */
  function Find(db: Db, id: int): Attempt<Nullable<Product>> {
    if !db.available then Threw(Unreachable)
    else if id in db.products then Done(NonNull(db.products[id]))
    else Done(Null)
  }

  datatype Inserted = Inserted(db: Db, product: Product)

  /** `Products.Add(p)` then `SaveChangesAsync()`: the identity column assigns
      the key, which EF writes back into the entity. An entity that arrives
      with a non-default Id is inserted with that explicit value, which the
      identity column refuses. */
  function Insert(db: Db, p: Product): (r: Attempt<Inserted>)
    ensures r.Done? <==> db.available && p.id == 0
    ensures db.available && p.id != 0 ==> r == Threw(ExplicitIdentity)
    ensures r.Done? ==>
      && r.value.product == p.(id := db.nextId)
      && r.value.db == db.(products := db.products[db.nextId := r.value.product], nextId := db.nextId + 1)
  {
    if !db.available then Threw(Unreachable)
    else if p.id != 0 then Threw(ExplicitIdentity)
    else
      var created := p.(id := db.nextId);
      Done(Inserted(db.(products := db.products[db.nextId := created], nextId := db.nextId + 1), created))
  }

  /** `Entry(p).State = Modified` then `SaveChangesAsync()`: an UPDATE by key
      that affects no row is reported as a concurrency exception. */
  function Modify(db: Db, p: Product): (r: Attempt<Db>)
    ensures r.Done? <==> db.available && p.id in db.products
    ensures r.Done? ==> r.value == db.(products := db.products[p.id := p])
  {
    if !db.available then Threw(Unreachable)
    else if p.id !in db.products then Threw(NoRowAffected)
    else Done(db.(products := db.products[p.id := p]))
  }

  /** `Products.Remove(p)` then `SaveChangesAsync()` for a row just found. */
  function Delete(db: Db, id: int): (r: Attempt<Db>)
    ensures r.Done? <==> db.available
    ensures r.Done? ==> r.value == db.(products := db.products - {id})
  {
    if !db.available then Threw(Unreachable) else Done(db.(products := db.products - {id}))
  }

  /** The three writes keep the table well-formed. */
  lemma WritesKeepValid(db: Db, p: Product, id: int)
    requires Valid(db)
    ensures Insert(db, p).Done? ==> Valid(Insert(db, p).value.db)
    ensures Modify(db, p).Done? ==> Valid(Modify(db, p).value)
    ensures Delete(db, id).Done? ==> Valid(Delete(db, id).value)
  {
  }

  // ---------------------------------------------------------------------
  // Seed data

  const Categories: seq<string> := ["Fruits", "Vegetables", "Beverages"]
  const Prices: seq<int> := [100, 200, 500, 1000]
  const Quantities: seq<int> := [50, 100, 150]
  const SeedCount := 600

  /** The row the generator builds for loop index `i`. */
  function DummyProduct(i: nat): Product {
    Product(i, "Product " + IntToString(i), Categories[i % |Categories|], Prices[i % |Prices|], Quantities[i % |Quantities|])
  }

  /** The first `n` rows, the row for index i at position i - 1. */
  function DummyTable(n: nat): (r: seq<Product>)
    ensures |r| == n
    ensures forall i :: 0 <= i < n ==> r[i].id == i + 1
    ensures forall i :: 0 <= i < n ==> r[i] == DummyProduct(r[i].id)
    decreases n
  {
    if n == 0 then [] else DummyTable(n - 1) + [DummyProduct(n)]
  }

  /** `GenerateDummyProducts(count)`: allocating an array of negative length
      throws. */
  function GenerateDummyProducts(count: int): (r: Attempt<seq<Product>>)
    ensures r.Done? <==> count >= 0
    ensures r.Threw? ==> r.error.OverflowException?
    ensures r.Done? ==> |r.value| == count
    ensures r.Done? ==> forall i :: 0 <= i < count ==>
      && r.value[i].id == i + 1
      && r.value[i].name == "Product " + IntToString(i + 1)
  {
    if count < 0 then Threw(OverflowException("Arithmetic operation resulted in an overflow."))
    else Done(DummyTable(count))
  }

  /** The seed Ids lie in 1..count and strictly ascend, hence are distinct. */
  lemma SeedIdsAscending(count: nat)
    ensures var r := GenerateDummyProducts(count).value;
      && (forall i :: 0 <= i < |r| ==> 1 <= r[i].id <= count)
      && (forall i, j :: 0 <= i < j < |r| ==> r[i].id < r[j].id)
  {
  }

  /** Category, price and quantity cycle through their tables by Id, and so
      only ever take those values; row Id 1 is a vegetable. */
  lemma SeedColumnsCycle(count: nat)
    ensures var r := GenerateDummyProducts(count).value;
      forall i :: 0 <= i < |r| ==>
        && r[i].category == Categories[r[i].id % 3]
        && r[i].category in {"Fruits", "Vegetables", "Beverages"}
        && r[i].price == Prices[r[i].id % 4]
        && r[i].price in {100, 200, 500, 1000}
        && r[i].quantity == Quantities[r[i].id % 3]
        && r[i].quantity in {50, 100, 150}
    ensures count >= 1 ==> GenerateDummyProducts(count).value[0].category == "Vegetables"
  {
    var r := GenerateDummyProducts(count).value;
    forall i | 0 <= i < |r|
      ensures r[i].category == Categories[r[i].id % 3] && r[i].category in {"Fruits", "Vegetables", "Beverages"}
      ensures r[i].price == Prices[r[i].id % 4] && r[i].price in {100, 200, 500, 1000}
      ensures r[i].quantity == Quantities[r[i].id % 3] && r[i].quantity in {50, 100, 150}
    {
      assert r[i] == DummyProduct(r[i].id);
      DummyColumns(r[i].id);
    }
    if count >= 1 {
      assert r[0] == DummyProduct(1);
    }
  }

  /** The columns of one generated row come from their tables. */
  lemma DummyColumns(id: nat)
    ensures DummyProduct(id).category in {"Fruits", "Vegetables", "Beverages"}
    ensures DummyProduct(id).price in {100, 200, 500, 1000}
    ensures DummyProduct(id).quantity in {50, 100, 150}
  {
    var c, p := id % 3, id % 4;
    assert c == 0 || c == 1 || c == 2;
    assert p == 0 || p == 1 || p == 2 || p == 3;
  }

  /** The table seeded with `count` generated rows, each under its Id. */
  function SeedDb(count: nat): (db: Db)
    ensures Valid(db)
    ensures forall id :: id in db.products <==> 1 <= id <= count
    ensures forall id :: id in db.products ==> db.products[id] == DummyProduct(id)
    ensures db.available && db.nextId == count + 1
  {
    var rows := GenerateDummyProducts(count).value;
    // the generated row for Id i sits at position i - 1
    Db(map id | 1 <= id <= count && SeedId(id, count) :: rows[id - 1], count + 1, true)
  }

  /** The Ids the seed assigns, named so that the comprehension over them has
      a term for the verifier to match on. */
  predicate SeedId(id: int, count: nat) {
    1 <= id <= count
  }

  /** `OnModelCreating`: the generator is called for 600 rows. */
  function Seeded(): (db: Db)
    ensures Valid(db)
    ensures forall id :: id in db.products <==> 1 <= id <= 600
    // each row is the one the generator builds at position id - 1
    ensures forall id :: id in db.products ==>
      && db.products[id] == GenerateDummyProducts(600).value[id - 1]
      && db.products[id].name == "Product " + IntToString(id)
  {
    SeedDb(SeedCount)
  }
}

=== FILE: outcomes.dfy ===
/** Shapes shared by the whole model: optional and nullable values, the
    exceptions the service distinguishes, and the outcome of a call that may
    throw. */
module Outcomes {

  /** An optional value (a dictionary lookup, a failure that may be absent). */
  datatype Option<+T> = None | Some(value: T)

  /** A C# reference that may be null. */
  datatype Nullable<+T> = Null | NonNull(value: T) {

    /** The `??` operator: the value, or `default` when null. */
    function GetOr(default: T): T {
      match this
      case NonNull(v) => v
      case Null => default
    }
  }

  /** The .NET exceptions the modelled code raises, catches or tells apart.
      Only `RedisConnectionException` is ever singled out by a catch clause;
      the others reach blanket `catch` blocks. */
  datatype Exception =
    | RedisConnectionException(message: string)
    | ArgumentException(message: string)
    | ArgumentOutOfRangeException(message: string)
    | JsonException(message: string)
    | DbException(message: string)
    | DbUpdateConcurrencyException(message: string)
    | OverflowException(message: string)

  /** A call that either returns a value or throws. */
  datatype Attempt<+T> = Done(value: T) | Threw(error: Exception)
}

=== FILE: products_controller.dfy ===
/** `ProductsController`: reads go through the cache-aside orchestrator under
    two key families, writes go to the database first and then invalidate the
    keys whose cached values they make stale. Each action is a transition of
    the (database, cache) pair. */
module ProductsController {
  import opened Outcomes
  import opened Text
  import opened Store
  import opened CacheService
  import opened Data

  const AllProductsKey := "GET_ALL_PRODUCTS"

  /** `$"Product_{id}"`. */
  function ProductKey(id: int): (k: string)
    ensures k != AllProductsKey
    ensures StartsWith(k, "Product_")
  {
    var k := "Product_" + IntToString(id);
    assert k[0] != AllProductsKey[0];
    k
  }

  /** Distinct products never share a cache key. */
  lemma ProductKeyInjective(a: int, b: int)
    requires ProductKey(a) == ProductKey(b)
    ensures a == b
  {
    assert ProductKey(a)[8..] == IntToString(a);
    assert ProductKey(b)[8..] == IntToString(b);
    IntToStringInjective(a, b);
  }

  /** The controller's injected collaborators: the cache settings of the
      `RedisCacheService` and the JSON codecs of the two cached types. */
  datatype Controller = Controller(settings: RedisSettings, item: Codec<Product>, list: Codec<seq<Product>>)

  datatype State = State(db: Db, cache: Cache)

  datatype ActionResult =
    | OkList(products: seq<Product>)
    | OkProduct(product: Product)
    | NotFound(detail: Option<string>)
    | Created(product: Product)
    | BadRequest(reason: string)
    | NoContent
    | ServerError(message: string)
  {
    function Code(): int {
      match this
      case OkList(_) => 200
      case OkProduct(_) => 200
      case NotFound(_) => 404
      case Created(_) => 201
      case BadRequest(_) => 400
      case NoContent => 204
      case ServerError(_) => 500
    }
  }

  /** The externally visible side effects of a mutation, in the order they
      are issued. */
  datatype Effect = SaveChanges | Invalidate(key: string)

  datatype Step = Step(response: ActionResult, state: State, effects: seq<Effect>)

  /** Every invalidation is issued after a database save (not necessarily
      the last one; the actions' contracts pin the exact trace). */
  predicate InvalidatesAfterSave(effects: seq<Effect>) {
    forall i :: 0 <= i < |effects| && effects[i].Invalidate? ==>
      exists j :: 0 <= j < i && effects[j] == SaveChanges
  }

  function Invalidated(effects: seq<Effect>): set<string> {
    set i | 0 <= i < |effects| && effects[i].Invalidate? :: effects[i].key
  }

  const InternalError := "Internal server error"

  function AllLoader(db: Db): Loader<seq<Product>> {
    (n: nat) =>
      match ToList(db)
      case Done(ps) => Done(NonNull(ps))
      case Threw(e) => Threw(e)
  }

  function ItemLoader(db: Db, id: int): Loader<Product> {
    (n: nat) => Find(db, id)
  }

  /** `GetAll()`. */
  function GetAll(ctl: Controller, s: State): (r: Step)
    ensures r.state.db == s.db && r.effects == []
    ensures
      var g := GetOrSet(ctl.settings, s.cache, AllProductsKey, AllLoader(s.db), ctl.list);
      && r.state.cache == g.cache
      && (g.outcome.Done? ==> r.response == OkList(g.outcome.value.GetOr([])))
      && (g.outcome.Threw? ==> r.response == ServerError(InternalError))
  {
    var g := GetOrSet(ctl.settings, s.cache, AllProductsKey, AllLoader(s.db), ctl.list);
    var response :=
      match g.outcome
      case Done(v) => OkList(v.GetOr([]))
      case Threw(_) => ServerError(InternalError);
    Step(response, State(s.db, g.cache), [])
  }

  /** `GetProduct(id)`. */
  function GetProduct(ctl: Controller, s: State, id: int): (r: Step)
    ensures r.state.db == s.db && r.effects == []
    ensures
      var g := GetOrSet(ctl.settings, s.cache, ProductKey(id), ItemLoader(s.db, id), ctl.item);
      && r.state.cache == g.cache
      && (r.response.NotFound? <==> g.outcome == Done(Null))
      && (r.response.NotFound? ==> r.response.detail == Some("Product " + IntToString(id) + " not found"))
      && (r.response.OkProduct? <==> g.outcome.Done? && g.outcome.value.NonNull?)
      && (r.response.OkProduct? ==> r.response.product == g.outcome.value.value)
      && (r.response == ServerError(InternalError) <==> g.outcome.Threw?)
  {
    var g := GetOrSet(ctl.settings, s.cache, ProductKey(id), ItemLoader(s.db, id), ctl.item);
    var response :=
      match g.outcome
      case Done(Null) => NotFound(Some("Product " + IntToString(id) + " not found"))
      case Done(NonNull(p)) => OkProduct(p)
      case Threw(_) => ServerError(InternalError);
    Step(response, State(s.db, g.cache), [])
  }

  /** `CreateProduct(product)`. */
  function CreateProduct(ctl: Controller, s: State, p: Product): (r: Step)
    ensures InvalidatesAfterSave(r.effects)
    // an unreachable database, or an Id the client chose, fails the save: 500 and nothing changes
    ensures !(s.db.available && p.id == 0) ==> r == Step(ServerError(InternalError), s, [])
    ensures s.db.available && p.id == 0 ==>
      && r.response == Created(p.(id := s.db.nextId))
      && r.state.db == Insert(s.db, p).value.db
      && r.state.cache == RemoveAsync(ctl.settings, s.cache, AllProductsKey)
      && Invalidated(r.effects) == {AllProductsKey}
      // one save, then the one invalidation
      && r.effects == [SaveChanges, Invalidate(AllProductsKey)]
  {
    match Insert(s.db, p)
    case Threw(_) => Step(ServerError(InternalError), s, [])
    case Done(Inserted(db, created)) =>
      var effects := [SaveChanges, Invalidate(AllProductsKey)];
      assert Invalidated(effects) == {AllProductsKey} by {
        assert effects[1].Invalidate?;
      }
      assert InvalidatesAfterSave(effects) by {
        assert effects[0] == SaveChanges;
      }
      Step(Created(created), State(db, RemoveAsync(ctl.settings, s.cache, AllProductsKey)), effects)
  }

  /** The two removals `Task.WhenAll` awaits, issued one after the other. */
  function InvalidateProduct(settings: RedisSettings, cache: Cache, id: int): (r: Cache)
    ensures Shrunk(cache, r)
    // no entry but the two keys' ever goes
    ensures forall k :: k in cache.entries && k !in r.entries ==>
      k == RawKey(cache, ProductKey(id)) || k == RawKey(cache, AllProductsKey)
    // each removal swallows its own failure, so one can succeed without the other
    ensures settings.enabled && RemoveHealthy(cache, ProductKey(id)) ==> RawKey(cache, ProductKey(id)) !in r.entries
    ensures settings.enabled && RemoveHealthy(cache, AllProductsKey) ==> RawKey(cache, AllProductsKey) !in r.entries
    // and a removal that throws leaves its key in place
    ensures !RemoveHealthy(cache, ProductKey(id)) && RawKey(cache, ProductKey(id)) in cache.entries ==>
      RawKey(cache, ProductKey(id)) in r.entries
    ensures !RemoveHealthy(cache, AllProductsKey) && RawKey(cache, AllProductsKey) in cache.entries ==>
      RawKey(cache, AllProductsKey) in r.entries
    ensures settings.enabled && RemoveHealthy(cache, ProductKey(id)) && RemoveHealthy(cache, AllProductsKey) ==>
      r.entries == cache.entries - {RawKey(cache, ProductKey(id)), RawKey(cache, AllProductsKey)}
    ensures !settings.enabled ==> r == cache
  {
    var first := RemoveAsync(settings, cache, ProductKey(id));
    var r := RemoveAsync(settings, first, AllProductsKey);
    // the first removal keeps the prefix and every key's health
    assert first == cache.(entries := first.entries);
    assert RawKey(first, AllProductsKey) == RawKey(cache, AllProductsKey);
    assert RemoveHealthy(first, AllProductsKey) == RemoveHealthy(cache, AllProductsKey);
    RawKeysApart(cache, id);
    ShrunkTransitive(cache, first, r);
    r
  }

  /** The two keys a write invalidates are stored apart, so neither removal
      touches the other's entry. */
  lemma RawKeysApart(cache: Cache, id: int)
    ensures RawKey(cache, ProductKey(id)) != RawKey(cache, AllProductsKey)
  {
    if RawKey(cache, ProductKey(id)) == RawKey(cache, AllProductsKey) {
      RawKeyInjective(cache, ProductKey(id), AllProductsKey);
    }
  }

  lemma ShrunkTransitive(a: Cache, b: Cache, c: Cache)
    requires Shrunk(a, b) && Shrunk(b, c)
    ensures Shrunk(a, c)
  {
  }

  /** The effects of a successful update or delete, in the order issued. */
  function InvalidateBoth(id: int): seq<Effect> {
    [SaveChanges, Invalidate(ProductKey(id)), Invalidate(AllProductsKey)]
  }

  lemma InvalidateBothEffects(id: int)
    ensures InvalidatesAfterSave(InvalidateBoth(id))
    ensures Invalidated(InvalidateBoth(id)) == {ProductKey(id), AllProductsKey}
  {
    SaveThenInvalidate(ProductKey(id), AllProductsKey);
  }

  /** A save followed by two invalidations invalidates exactly those two keys,
      both after the save. */
  lemma SaveThenInvalidate(a: string, b: string)
    ensures InvalidatesAfterSave([SaveChanges, Invalidate(a), Invalidate(b)])
    ensures Invalidated([SaveChanges, Invalidate(a), Invalidate(b)]) == {a, b}
  {
    var effects := [SaveChanges, Invalidate(a), Invalidate(b)];
    assert effects[0] == SaveChanges;
    forall k | k in Invalidated(effects)
      ensures k == a || k == b
    {
      var i :| 0 <= i < |effects| && effects[i].Invalidate? && effects[i].key == k;
      assert i == 1 || i == 2;
    }
    assert effects[1].Invalidate? && effects[2].Invalidate?;
    assert a in Invalidated(effects) && b in Invalidated(effects);
  }

  /** `UpdateProduct(id, product)`. */
  function UpdateProduct(ctl: Controller, s: State, id: int, p: Product): (r: Step)
    ensures InvalidatesAfterSave(r.effects)
    ensures id != p.id ==> r == Step(BadRequest("ID mismatch"), s, [])
    // the outcome depends on the database alone: invalidation never turns success into an error
    ensures r.response == NoContent <==> id == p.id && s.db.available && id in s.db.products
    ensures r.response != NoContent ==> r.state == s && r.effects == []
    // a save that fails (database unreachable, or no such row) reaches the catch block
    ensures id == p.id && !(s.db.available && id in s.db.products) ==> r == Step(ServerError(InternalError), s, [])
    ensures r.response == NoContent ==>
      && r.state.db == s.db.(products := s.db.products[id := p])
      && Invalidated(r.effects) == {ProductKey(id), AllProductsKey}
      && r.effects == InvalidateBoth(id)
      && r.state.cache == InvalidateProduct(ctl.settings, s.cache, id)
  {
    if id != p.id then Step(BadRequest("ID mismatch"), s, [])
    else
      match Modify(s.db, p)
      case Threw(_) => Step(ServerError(InternalError), s, [])
      case Done(db) =>
        InvalidateBothEffects(id);
        Step(NoContent, State(db, InvalidateProduct(ctl.settings, s.cache, id)), InvalidateBoth(id))
  }

  /** `DeleteProduct(id)`. */
  function DeleteProduct(ctl: Controller, s: State, id: int): (r: Step)
    ensures InvalidatesAfterSave(r.effects)
    ensures !s.db.available ==> r == Step(ServerError(InternalError), s, [])
    ensures s.db.available && id !in s.db.products ==> r == Step(NotFound(None), s, [])
    ensures r.response == NoContent <==> s.db.available && id in s.db.products
    ensures r.response == NoContent ==>
      && r.state.db == s.db.(products := s.db.products - {id})
      && Invalidated(r.effects) == {ProductKey(id), AllProductsKey}
      && r.effects == InvalidateBoth(id)
      && r.state.cache == InvalidateProduct(ctl.settings, s.cache, id)
  {
    match Find(s.db, id)
    case Threw(_) => Step(ServerError(InternalError), s, [])
    case Done(Null) => Step(NotFound(None), s, [])
    case Done(NonNull(_)) =>
      match Delete(s.db, id)
      case Threw(_) => Step(ServerError(InternalError), s, [])
      case Done(db) =>
        InvalidateBothEffects(id);
        Step(NoContent, State(db, InvalidateProduct(ctl.settings, s.cache, id)), InvalidateBoth(id))
  }

  // ---------------------------------------------------------------------
  // The cache never serves stale data

  /** Whatever the cache would serve under either key family agrees with the
      database. Only meaningful while caching is enabled: a disabled service
      never reads the cache. */
  ghost predicate Coherent(ctl: Controller, s: State) {
    ctl.settings.enabled ==>
      && (forall id :: CachedValue(s.cache, ProductKey(id), ctl.item).Some? ==>
            id in s.db.products && CachedValue(s.cache, ProductKey(id), ctl.item).value == NonNull(s.db.products[id]))
      && (CachedValue(s.cache, AllProductsKey, ctl.list).Some? ==>
            CachedValue(s.cache, AllProductsKey, ctl.list).value == NonNull(Listing(s.db.products)))
  }

  /** Writing one key leaves what every other key would serve unchanged. */
  lemma WriteIsolated<T>(c: Cache, key: string, e: Entry, other: string, codec: Codec<T>)
    requires other != key
    ensures CachedValue(c.(entries := c.entries[RawKey(c, key) := e]), other, codec) == CachedValue(c, other, codec)
  {
    if RawKey(c, other) == RawKey(c, key) {
      RawKeyInjective(c, other, key);
    }
  }

  /** Removals (invalidation, the admin actions, expiry) keep the cache
      coherent: they only make it serve less. */
  lemma ShrinkingKeepsCoherence(ctl: Controller, db: Db, c: Cache, c': Cache)
    requires Coherent(ctl, State(db, c)) && Shrunk(c, c')
    ensures Coherent(ctl, State(db, c'))
  {
    ShrunkServes(c, c', AllProductsKey, ctl.list);
    forall id
      ensures CachedValue(c', ProductKey(id), ctl.item).Some? ==>
        CachedValue(c', ProductKey(id), ctl.item) == CachedValue(c, ProductKey(id), ctl.item)
    {
      ShrunkServes(c, c', ProductKey(id), ctl.item);
    }
  }

  /** What a shrunk cache still serves under a key, it served before. */
  lemma ShrunkServes<T>(c: Cache, c': Cache, key: string, codec: Codec<T>)
    requires Shrunk(c, c')
    ensures CachedValue(c', key, codec).Some? ==> CachedValue(c', key, codec) == CachedValue(c, key, codec)
  {
    assert RawKey(c', key) == RawKey(c, key);
  }

  lemma GetAllKeepsCoherence(ctl: Controller, s: State)
    requires Coherent(ctl, s) && RoundTrips(ctl.list)
    ensures Coherent(ctl, GetAll(ctl, s).state)
  {
    var g := GetOrSet(ctl.settings, s.cache, AllProductsKey, AllLoader(s.db), ctl.list);
    if g.cache != s.cache {
      var ps := Listing(s.db.products);
      assert AllLoader(s.db)(0) == Done(NonNull(ps));
      var e := Entry(ctl.list.serialize(ps).value, ctl.settings.cacheDurationMinutes);
      assert g.cache == s.cache.(entries := s.cache.entries[RawKey(s.cache, AllProductsKey) := e]);
      assert CachedValue(g.cache, AllProductsKey, ctl.list) == Some(NonNull(ps));
      forall id
        ensures CachedValue(g.cache, ProductKey(id), ctl.item) == CachedValue(s.cache, ProductKey(id), ctl.item)
      {
        WriteIsolated(s.cache, AllProductsKey, e, ProductKey(id), ctl.item);
      }
    }
  }

  lemma GetProductKeepsCoherence(ctl: Controller, s: State, id: int)
    requires Coherent(ctl, s) && RoundTrips(ctl.item)
    ensures Coherent(ctl, GetProduct(ctl, s, id).state)
  {
    var g := GetOrSet(ctl.settings, s.cache, ProductKey(id), ItemLoader(s.db, id), ctl.item);
    if g.cache != s.cache {
      assert ItemLoader(s.db, id)(0) == Find(s.db, id);
      var p := s.db.products[id];
      var e := Entry(ctl.item.serialize(p).value, ctl.settings.cacheDurationMinutes);
      assert g.cache == s.cache.(entries := s.cache.entries[RawKey(s.cache, ProductKey(id)) := e]);
      assert CachedValue(g.cache, ProductKey(id), ctl.item) == Some(NonNull(p));
      WriteIsolated(s.cache, ProductKey(id), e, AllProductsKey, ctl.list);
      forall other | other != id
        ensures CachedValue(g.cache, ProductKey(other), ctl.item) == CachedValue(s.cache, ProductKey(other), ctl.item)
      {
        if ProductKey(other) == ProductKey(id) {
          ProductKeyInjective(other, id);
        }
        WriteIsolated(s.cache, ProductKey(id), e, ProductKey(other), ctl.item);
      }
    }
  }

  lemma CreateKeepsCoherence(ctl: Controller, s: State, p: Product)
    requires Valid(s.db) && Coherent(ctl, s)
    requires ctl.settings.enabled ==> RemoveHealthy(s.cache, AllProductsKey)
    ensures Coherent(ctl, CreateProduct(ctl, s, p).state)
  {
    var r := CreateProduct(ctl, s, p);
    if s.db.available && ctl.settings.enabled {
      var c := r.state.cache;
      ShrinkingKeepsCoherence(ctl, s.db, s.cache, c);
      assert RawKey(c, AllProductsKey) == RawKey(s.cache, AllProductsKey);
      forall id | CachedValue(c, ProductKey(id), ctl.item).Some?
        ensures id in r.state.db.products && r.state.db.products[id] == s.db.products[id]
      {
      }
    }
  }

  /** Both keys of the changed product can be removed, or caching is off. */
  predicate InvalidationSucceeds(ctl: Controller, s: State, id: int) {
    ctl.settings.enabled ==> RemoveHealthy(s.cache, ProductKey(id)) && RemoveHealthy(s.cache, AllProductsKey)
  }

  lemma UpdateKeepsCoherence(ctl: Controller, s: State, id: int, p: Product)
    requires Coherent(ctl, s) && InvalidationSucceeds(ctl, s, id)
    ensures Coherent(ctl, UpdateProduct(ctl, s, id, p).state)
  {
    var r := UpdateProduct(ctl, s, id, p);
    if r.response == NoContent && ctl.settings.enabled {
      var c := r.state.cache;
      ShrinkingKeepsCoherence(ctl, s.db, s.cache, c);
      assert RawKey(c, AllProductsKey) == RawKey(s.cache, AllProductsKey);
      forall other | CachedValue(c, ProductKey(other), ctl.item).Some?
        ensures other != id
      {
        assert RawKey(c, ProductKey(other)) == RawKey(s.cache, ProductKey(other));
      }
    }
  }

  lemma DeleteKeepsCoherence(ctl: Controller, s: State, id: int)
    requires Coherent(ctl, s) && InvalidationSucceeds(ctl, s, id)
    ensures Coherent(ctl, DeleteProduct(ctl, s, id).state)
  {
    var r := DeleteProduct(ctl, s, id);
    if r.response == NoContent && ctl.settings.enabled {
      var c := r.state.cache;
      ShrinkingKeepsCoherence(ctl, s.db, s.cache, c);
      assert RawKey(c, AllProductsKey) == RawKey(s.cache, AllProductsKey);
      assert CachedValue(c, AllProductsKey, ctl.list).None?;
      assert RawKey(c, ProductKey(id)) !in c.entries;
      forall other | CachedValue(c, ProductKey(other), ctl.item).Some?
        ensures other != id && other in r.state.db.products
      {
        assert RawKey(c, ProductKey(other)) == RawKey(s.cache, ProductKey(other));
      }
    }
  }

  /** A coherent cache serves exactly what the database holds: a product
      comes back only if it is the stored row, 404 only if there is none, and
      a reachable database never yields a 500. */
  lemma GetProductServesDb(ctl: Controller, s: State, id: int)
    requires Coherent(ctl, s)
    ensures
      var r := GetProduct(ctl, s, id).response;
      && (r.OkProduct? ==> id in s.db.products && r.product == s.db.products[id])
      && (r.NotFound? ==> id !in s.db.products)
      && (s.db.available ==> r.OkProduct? || r.NotFound?)
  {
    var g := GetOrSet(ctl.settings, s.cache, ProductKey(id), ItemLoader(s.db, id), ctl.item);
    if g.calls > 0 {
      assert ItemLoader(s.db, id)(g.calls - 1) == Find(s.db, id);
    }
  }

  lemma GetAllServesDb(ctl: Controller, s: State)
    requires Coherent(ctl, s)
    ensures
      var r := GetAll(ctl, s).response;
      && (r.OkList? ==> r.products == Listing(s.db.products))
      && (s.db.available ==> r.OkList?)
  {
    var g := GetOrSet(ctl.settings, s.cache, AllProductsKey, AllLoader(s.db), ctl.list);
    if g.calls > 0 {
      assert AllLoader(s.db)(g.calls - 1) == (if s.db.available then Done(NonNull(Listing(s.db.products))) else Threw(Unreachable));
    }
  }

  /** Read-your-writes through the cache: after a successful update whose
      invalidation went through, reading the product returns the new row,
      however the cache behaves on the read. */
  lemma ReadAfterUpdate(ctl: Controller, s: State, p: Product)
    requires Coherent(ctl, s) && InvalidationSucceeds(ctl, s, p.id)
    requires s.db.available && p.id in s.db.products
    ensures
      var u := UpdateProduct(ctl, s, p.id, p);
      u.response == NoContent && GetProduct(ctl, u.state, p.id).response == OkProduct(p)
  {
    var u := UpdateProduct(ctl, s, p.id, p);
    UpdateKeepsCoherence(ctl, s, p.id, p);
    GetProductServesDb(ctl, u.state, p.id);
  }

  /** A cache with no entries is coherent with any database. */
  lemma EmptyCacheCoherent(ctl: Controller, db: Db, c: Cache)
    requires c.entries == map[]
    ensures Coherent(ctl, State(db, c))
  {
    assert forall key :: RawKey(c, key) !in c.entries;
  }
}

=== FILE: store.dfy ===
/** The Redis server as the application reaches it through
    `IDistributedCache` (the StackExchange.Redis cache with an instance name).

    The server holds raw keys; the distributed-cache client prepends the
    configured instance name to every key it is given, verbatim. Each
    operation may fail: the whole server may be unreachable (every operation
    throws `RedisConnectionException`), or an individual raw key may be set up
    to make reads, writes or removals throw a given exception. Time, and hence
    expiry, is not modelled: an entry only records the sliding expiration it
    was written with. */
module Store {
  import opened Outcomes

  /** One cached payload and the sliding expiration, in minutes, it was
      written with. */
  datatype Entry = Entry(data: string, slidingMinutes: int)

  datatype Cache = Cache(
    instanceName: string,
    entries: map<string, Entry>,
    reachable: bool,
    readFaults: map<string, Exception>,
    writeFaults: map<string, Exception>,
    removeFaults: map<string, Exception>)

  const ConnectionLost := RedisConnectionException("No connection is available to service this operation")

  const SlidingNotPositive :=
    ArgumentOutOfRangeException("The sliding expiration value must be positive. (Parameter 'SlidingExpiration')")

  /** The server-side key under which the client stores `key`. */
  function RawKey(c: Cache, key: string): string {
    c.instanceName + key
  }

  /** Distinct keys never share a raw key. */
  lemma RawKeyInjective(c: Cache, a: string, b: string)
    requires RawKey(c, a) == RawKey(c, b)
    ensures a == b
  {
    assert a == RawKey(c, a)[|c.instanceName|..];
    assert b == RawKey(c, b)[|c.instanceName|..];
  }

  predicate ReadHealthy(c: Cache, key: string) {
    c.reachable && RawKey(c, key) !in c.readFaults
  }

  predicate WriteHealthy(c: Cache, key: string) {
    c.reachable && RawKey(c, key) !in c.writeFaults
  }

  predicate RemoveHealthy(c: Cache, key: string) {
    c.reachable && RawKey(c, key) !in c.removeFaults
  }

  /** `GetStringAsync(key)`: the stored payload, or null when absent. */
  function GetString(c: Cache, key: string): Attempt<Nullable<string>> {
    var raw := RawKey(c, key);
    if !c.reachable then Threw(ConnectionLost)
    else if raw in c.readFaults then Threw(c.readFaults[raw])
    else if raw in c.entries then Done(NonNull(c.entries[raw].data))
    else Done(Null)
  }

  /** `SetStringAsync(key, data, options)` with a sliding expiration. */
  function SetString(c: Cache, key: string, data: string, slidingMinutes: int): Attempt<Cache> {
    var raw := RawKey(c, key);
    if !c.reachable then Threw(ConnectionLost)
    else if raw in c.writeFaults then Threw(c.writeFaults[raw])
    else Done(c.(entries := c.entries[raw := Entry(data, slidingMinutes)]))
  }

  /** `RemoveAsync(key)`: removing an absent key succeeds. */
  function Remove(c: Cache, key: string): Attempt<Cache> {
    var raw := RawKey(c, key);
    if !c.reachable then Threw(ConnectionLost)
    else if raw in c.removeFaults then Threw(c.removeFaults[raw])
    else Done(c.(entries := c.entries - {raw}))
  }

  /** `new DistributedCacheEntryOptions { SlidingExpiration = FromMinutes(m) }`:
      the setter rejects a span that is not positive. */
  function SlidingExpiration(minutes: int): Attempt<int> {
    if minutes <= 0 then Threw(SlidingNotPositive) else Done(minutes)
  }

  /** `b` keeps a subset of `a`'s entries, each unchanged, and nothing else
      about the server differs: what any sequence of removals leaves. */
  predicate Shrunk(a: Cache, b: Cache) {
    && b == a.(entries := b.entries)
    && forall k :: k in b.entries ==> k in a.entries && b.entries[k] == a.entries[k]
  }
}

=== FILE: text.dfy ===
/** String operations the controllers rely on: .NET's ordinal
    `String.Replace(string, string)` and the decimal rendering of an `int`
    inside an interpolated string. */
module Text {
  import opened Outcomes

  predicate StartsWith(s: string, prefix: string) {
    |prefix| <= |s| && s[..|prefix|] == prefix
  }

  /** `pat` occurs in `s` starting at index `i`. */
  predicate OccursAt(s: string, pat: string, i: int) {
    0 <= i && i + |pat| <= |s| && s[i..i + |pat|] == pat
  }

  predicate Occurs(s: string, pat: string) {
    exists i :: 0 <= i <= |s| && OccursAt(s, pat, i)
  }

  /** Every occurrence of a non-empty `pat` in `s` replaced by `rep`, scanning
      left to right and never overlapping two occurrences: what .NET's
      ordinal `String.Replace(oldValue, newValue)` returns. */
  function ReplaceAll(s: string, pat: string, rep: string): (r: string)
    requires |pat| > 0
    // deleting never lengthens, and a same-length replacement keeps the length
    ensures rep == "" ==> |r| <= |s|
    ensures |rep| == |pat| ==> |r| == |s|
    decreases |s|
  {
    if |s| < |pat| then s
    else if StartsWith(s, pat) then rep + ReplaceAll(s[|pat|..], pat, rep)
    else [s[0]] + ReplaceAll(s[1..], pat, rep)
  }

  const ZeroLengthMessage := "String cannot be of zero length. (Parameter 'oldValue')"

  /** `s.Replace(pat, rep)`: .NET refuses an empty search string. */
  function Replace(s: string, pat: string, rep: string): (r: Attempt<string>)
    ensures r.Threw? <==> pat == ""
    ensures r.Threw? ==> r.error == ArgumentException(ZeroLengthMessage)
    ensures r.Done? ==> r.value == ReplaceAll(s, pat, rep)
  {
    if pat == "" then Threw(ArgumentException(ZeroLengthMessage))
    else Done(ReplaceAll(s, pat, rep))
  }

  lemma {:induction false} ReplaceAbsent(s: string, pat: string, rep: string)
    requires |pat| > 0
    requires !Occurs(s, pat)
    ensures ReplaceAll(s, pat, rep) == s
    decreases |s|
  {
    if |s| >= |pat| {
      assert !OccursAt(s, pat, 0);
      assert s[0..|pat|] == s[..|pat|];
      var t := s[1..];
      forall i | 0 <= i <= |t| && OccursAt(t, pat, i)
        ensures false
      {
        assert t[i..i + |pat|] == s[i + 1..i + 1 + |pat|];
        assert OccursAt(s, pat, i + 1);
      }
      ReplaceAbsent(t, pat, rep);
      assert [s[0]] + t == s;
    }
  }

  /** Removing an occurrence that is there makes the string strictly shorter. */
  lemma {:induction false} RemovalShortens(s: string, pat: string)
    requires |pat| > 0
    requires Occurs(s, pat)
    ensures |ReplaceAll(s, pat, "")| < |s|
    decreases |s|
  {
    var i :| 0 <= i <= |s| && OccursAt(s, pat, i);
    if StartsWith(s, pat) {
    } else {
      assert i != 0;
      var t := s[1..];
      assert t[i - 1..i - 1 + |pat|] == s[i..i + |pat|];
      assert OccursAt(t, pat, i - 1);
      RemovalShortens(t, pat);
    }
  }

  /** The scan is a single left-to-right pass: text produced by a
      replacement, or brought together by one, is never scanned again. A
      deletion repeated until no occurrence is left would turn "aabb" into "",
      and a rescan of "a" -> "aa" would never end. */
  lemma ReplaceAllSinglePass()
    ensures ReplaceAll("aabb", "ab", "") == "ab"
    ensures ReplaceAll("a", "a", "aa") == "aa"
  {
    assert "b"[..0] == "";
    assert ReplaceAll("b", "ab", "") == "b";
    assert "abb"[..2] == "ab" && "abb"[2..] == "b";
    assert ReplaceAll("abb", "ab", "") == "b";
    assert "aabb"[..2] == "aa" && "aabb"[1..] == "abb";
    assert ReplaceAll("aabb", "ab", "") == "a" + "b";
    assert "a"[..1] == "a" && "a"[1..] == "";
    assert ReplaceAll("", "a", "aa") == "";
  }

  /** Replacing `pat` by nothing in `pat + k` gives back exactly `k` if and
      only if `pat` does not occur inside `k`. */
  lemma StripByReplace(pat: string, k: string)
    requires |pat| > 0
    ensures ReplaceAll(pat + k, pat, "") == k <==> !Occurs(k, pat)
  {
    var s := pat + k;
    assert s[..|pat|] == pat;
    assert s[|pat|..] == k;
    assert ReplaceAll(s, pat, "") == ReplaceAll(k, pat, "");
    if Occurs(k, pat) {
      RemovalShortens(k, pat);
    } else {
      ReplaceAbsent(k, pat, "");
    }
  }

  predicate IsDigit(c: char) {
    '0' <= c <= '9'
  }

  predicate AllDigits(s: string) {
    forall i :: 0 <= i < |s| ==> IsDigit(s[i])
  }

  function DigitChar(d: nat): (c: char)
    requires d < 10
    ensures IsDigit(c)
  {
    (48 + d) as char
  }

  function DigitValue(c: char): nat
    requires IsDigit(c)
  {
    c as int - 48
  }

  /** Decimal digits of `n`, most significant first, no leading zeros. */
  function NatToString(n: nat): (r: string)
    ensures |r| > 0 && AllDigits(r)
    decreases n
  {
    if n < 10 then [DigitChar(n)]
    else NatToString(n / 10) + [DigitChar(n % 10)]
  }

  /** `int.ToString()` with ASCII symbols: a leading '-' for negative
      numbers, then the decimal digits of the magnitude. */
  function IntToString(n: int): (r: string)
    ensures |r| > 0
    ensures r[0] == '-' <==> n < 0
    ensures n >= 0 ==> AllDigits(r)
    ensures n < 0 ==> AllDigits(r[1..]) && |r| >= 2
  {
    if n < 0 then "-" + NatToString(-n) else NatToString(n)
  }

  /** The number a string of decimal digits denotes. */
  function ParseNat(s: string): nat
    requires AllDigits(s)
    decreases |s|
  {
    if |s| == 0 then 0 else 10 * ParseNat(s[..|s| - 1]) + DigitValue(s[|s| - 1])
  }

  lemma {:induction false} ParseNatToString(n: nat)
    ensures ParseNat(NatToString(n)) == n
    decreases n
  {
    if n >= 10 {
      var s := NatToString(n);
      assert s[..|s| - 1] == NatToString(n / 10);
      ParseNatToString(n / 10);
    }
  }

  /** Distinct integers render as distinct strings. */
  lemma IntToStringInjective(a: int, b: int)
    requires IntToString(a) == IntToString(b)
    ensures a == b
  {
    if a < 0 {
      assert IntToString(a)[1..] == NatToString(-a);
      assert IntToString(b)[1..] == NatToString(-b);
      ParseNatToString(-a);
      ParseNatToString(-b);
    } else {
      ParseNatToString(a);
      ParseNatToString(b);
    }
  }
}
